=== FILE: README.md ===
# DesignWare I2C controller driver: master-mode transfer engine

This project models the master-mode transfer engine of VoodooI2C's driver
for Synopsys DesignWare I2C controllers
(`VoodooI2CControllerDriver.cpp`), and proves properties of that model.
It covers four parts:

- **Timing calculator** (`timing.dfy`). It covers `getClkRateFor`, the
  `DIV_ROUND_CLOSEST_ULL` and `DIV_S64_ROUND_CLOSEST` macros, and the
  timing half of `getBusConfig`. Together these produce the standard-mode
  and fast-mode SCL counts and the SDA hold value.
- **Interrupt-driven FIFO engine** (`engine.dfy`, `controller.dfy`).
  - `transferMessageToBus` fills the TX FIFO with DATA_CMD words, each
    carrying its stop, restart and read bits.
  - `readFromBus` drains the RX FIFO into the read messages.
  - `readClearInterruptBits` acknowledges interrupts, and
    `handleInterrupt` ties the steps together.

  `engine.dfy` states one fill (`FillFrom`) and one drain (`DrainFrom`)
  as functions of the transfer cursors and proves the command-word rules
  about them. The `Controller` class holds the driver's `bus_device`
  cursors as fields. Its loop methods are proved to compute exactly those
  functions.
- **Bus helpers** (`bus.dfy`, `controller.dfy`): `toggleBusState`,
  `toggleInterrupts`, `initialiseBus`, `requestTransferI2C` and
  `waitBusNotBusyI2C`. Each is an ordered sequence of register writes.
  The pure functions in `bus.dfy` say what the registers hold afterwards.
- **Outcome** (`outcome.dfy`, `abort.dfy`).
  - The classification at the end of `prepareTransferI2C`.
  - The retry loop of `transferI2CGated`.
  - `handleAbortI2C`, modelled as the decoding of TX_ABRT_SOURCE into a
    set of named reasons.

The hardware behind the nub's register window is the class
`Controller.Port`:

- Plain registers hold what was last written to them.
- DATA_CMD writes queue commands and DATA_CMD reads pop the RX FIFO.
- INTR_STAT is RAW_INTR_STAT under INTR_MASK.
- Reading a clear register acknowledges raw interrupt bits.
- ENABLE_STATUS and STATUS answer from scripts of hardware answers. Once
  a script is used up, the hardware has settled.
- Every register write is recorded in a ghost log.

The DW_IC_* constants come from a header that is not part of this model.
Their values follow the DesignWare register layout: interrupt bits 0x001
to 0x800, the RX-hold field at bits 16..23 of SDA_HOLD, 10-bit addressing
at bit 4 of CON and bit 12 of TAR, and command_error's abort marker 1.

Four behaviours of the code worth knowing:

- **FMCN override.** The FMCN override's SDA hold value does not always
  win. On hardware whose SDA hold time is adjustable and whose clock is
  known, line 116 replaces it with the clock's value. See
  `Timing.ClockReplacesFmcnHold`.
- **SDA_HOLD register.** When the clock is unknown, the register is read
  only if the value held so far is zero.
- **Retries.** The interrupt path only ever sets command_error to 0 or the
  abort marker, so `prepareTransferI2C` never reports NotReady. The retry
  loop of `transferI2CGated` therefore always stops after one attempt. See
  `Outcome.AbortOnlyErrorsAreNotRetried` and
  `Controller.Controller.TransferGated`.
- **Lost restart.** The restart bit between messages is kept only in
  the local variable `need_restart` of `transferMessageToBus` (declared at
  line 711, set at lines 739-741). When a message is entered with no free
  TX slot or no free RX slot, or its first command is a read blocked by
  the outstanding reads, nothing carries the restart. The message is then
  left with WRITE_IN_PROGRESS set (lines 782-783), and the next call
  resumes it without the restart bit. See `Engine.FillBurst` (a resumed
  message never gets a restart) and `Engine.EmitUnfold` (a blocked read
  drops the restart).

All source paths below are in
`VoodooI2C/VoodooI2C/VoodooI2CController/VoodooI2CControllerDriver.cpp`.

## Model

| member | source | states |
|---|---|---|
| Registers.CommandWord | VoodooI2C/VoodooI2C/VoodooI2CController/VoodooI2CControllerDriver.cpp:757-775 | A DATA_CMD word carries the stop bit 0x200 exactly when asked and the restart bit 0x400 exactly when asked. It carries the read token 0x100 exactly for a read, in which case the data byte is 0; otherwise it carries the data byte. Nothing above bit 10 is set. |
| Registers.FillMask | VoodooI2C/VoodooI2C/VoodooI2CController/VoodooI2CControllerDriver.cpp:713-802 | The mask after a fill is 0 when message_error is set. Otherwise it is the default mask, with TX_EMPTY cleared exactly when every message has been queued. |
| Registers.ControlWord | VoodooI2C/VoodooI2C/VoodooI2CController/VoodooI2CControllerDriver.cpp:591-602 | The bus configuration has the master, slave-disable, restart-enable and fast-speed bits. It has BUS_CLEAR_CTRL exactly when CON had it, and no other bit: neither 10-bit addressing nor high speed. |
| Registers.TargetWords | VoodooI2C/VoodooI2C/VoodooI2CController/VoodooI2CControllerDriver.cpp:495-516 | CON gets 10-bit master addressing exactly when the message has I2C_M_TEN, and every other CON bit is kept. TAR is the address, with bit 12 set for a ten-bit address. |
| Registers.ClearedBits | VoodooI2C/VoodooI2C/VoodooI2CController/VoodooI2CControllerDriver.cpp:393-421 | Only pending bits that have a clear register are acknowledged. STOP_DET is acknowledged exactly when no read is outstanding or RX_FULL is also pending. |
| Timing.DivRoundClosest | VoodooI2C/VoodooI2C/VoodooI2CController/VoodooI2CControllerDriver.cpp:28-47 | The quotient is the nearest integer, with halves rounded up: `q*d <= x + d/2 < (q+1)*d`. |
| Timing.DivS64RoundClosest | VoodooI2C/VoodooI2C/VoodooI2CController/VoodooI2CControllerDriver.cpp:49-66 | With C's truncating division and a positive divisor, it equals the unsigned rounding for non-negative dividends and is odd-symmetric for negative ones. |
| Timing.RoundClosestCases | VoodooI2C/VoodooI2C/VoodooI2CController/VoodooI2CControllerDriver.cpp:60-66 | The two branches of the signed macro agree with half-up rounding of the magnitude, for positive, zero and negative dividends. |
| Timing.ClkRateFor | VoodooI2C/VoodooI2C/VoodooI2CController/VoodooI2CControllerDriver.cpp:68-76 | AMD0010 runs at 133000 kHz, and AMDI0010 and AMDI0019 at 150000 kHz. The clock is 0 (unknown) exactly for every other name. |
| Timing.SclCount | VoodooI2C/VoodooI2C/VoodooI2CController/VoodooI2CControllerDriver.cpp:94-106 | An SCL count plus its offset is `clk*ns/10^6` rounded to nearest whenever that rounded value reaches the offset. A rounded value below the offset wraps around in 32 bits: the count plus the offset is then 2^32 plus the rounded value. |
| Timing.RoundingIsNotTruncation | VoodooI2C/VoodooI2C/VoodooI2CController/VoodooI2CControllerDriver.cpp:94 | On the 133 MHz platform the standard-mode high count is 569, where truncating division would give 568. |
| Timing.ForceRxHold | VoodooI2C/VoodooI2C/VoodooI2CController/VoodooI2CControllerDriver.cpp:134-136 | The result has a nonzero RX-hold field. A value whose field was already set is unchanged; otherwise the field becomes 1. The hold time (bits 0..15) and the bits above the field are kept. |
| Timing.ForceRxHoldIdempotent | VoodooI2C/VoodooI2C/VoodooI2CController/VoodooI2CControllerDriver.cpp:134-136 | Forcing the RX-hold bit twice gives the same value as forcing it once. |
| Timing.ResolveSdaHold | VoodooI2C/VoodooI2C/VoodooI2CController/VoodooI2CControllerDriver.cpp:114-139 | Below the minimum version the SDA hold value is untouched. Otherwise it is nonzero with the RX-hold bit set. It is the clock's rounded value when that is nonzero, else the held value when the clock is unknown and that is nonzero. Failing both, it is the SDA_HOLD register when nonzero, else 0x1E on Sunrise Point and 0x62 elsewhere, each with RX-hold forced. |
| Timing.UnknownClockHold | VoodooI2C/VoodooI2C/VoodooI2CController/VoodooI2CControllerDriver.cpp:114-125 | With the clock unknown on adjustable hardware, the SDA hold value is the FMCN override's when nonzero, else SDA_HOLD when nonzero, else 0x1E or 0x62 by platform, each with RX-hold forced. |
| Timing.BusTiming | VoodooI2C/VoodooI2C/VoodooI2CController/VoodooI2CControllerDriver.cpp:87-145 | Overrides are kept verbatim. Without one and with a known clock, the counts follow the 4300/5000 and 900/1600 ns formulas with offsets 3 and 1. Without either, the Sunrise Point pair or the generic pair is used. The result is NotFound exactly when a fallback pair was used, Success otherwise. The SDA hold value is ResolveSdaHold of the version check, the clock, the FMCN hold (or the value held so far), SDA_HOLD and the platform. |
| Timing.ClockReplacesFmcnHold | VoodooI2C/VoodooI2C/VoodooI2CController/VoodooI2CControllerDriver.cpp:103-116 | With a known clock on adjustable hardware, the FMCN override's SDA hold value is replaced by the clock's value, with RX-hold forced. |
| Timing.Amd133Timing | VoodooI2C/VoodooI2C/VoodooI2CController/VoodooI2CControllerDriver.cpp:87-136 | On AMD0010 without overrides the timing is (569, 664, 117, 212) with SDA hold 0x10028, and the result is Success. |
| Bus.SettlePolls | VoodooI2C/VoodooI2C/VoodooI2CController/VoodooI2CControllerDriver.cpp:650-662 | This counts the ENABLE_STATUS answers before the first one whose bit 0 matches. Every earlier answer differs and the answer at the count matches. |
| Bus.Words | VoodooI2C/VoodooI2C/VoodooI2CController/VoodooI2CControllerDriver.cpp:256-262 | The SDA hold word is nonzero exactly when the configured SDA hold value is. |
| Bus.ToggledValues | VoodooI2C/VoodooI2C/VoodooI2CController/VoodooI2CControllerDriver.cpp:650-673 | After toggleBusState, ENABLE holds the requested state, and CON, TAR and INTR_MASK keep their values. |
| Bus.SetupWrites | VoodooI2C/VoodooI2C/VoodooI2CController/VoodooI2CControllerDriver.cpp:256-265 | initialiseBus makes 8 writes, or 7 when the SDA hold value is zero. The first is SS_SCL_HCNT and the last is CON. SDA_HOLD is written exactly when its value is nonzero. |
| Bus.TimedValues | VoodooI2C/VoodooI2C/VoodooI2CController/VoodooI2CControllerDriver.cpp:256-262 | The four count registers hold the timing words. SDA_HOLD changes only when its word is nonzero. The thresholds, CON, ENABLE and INTR_MASK are untouched. |
| Bus.ThresholdValues | VoodooI2C/VoodooI2C/VoodooI2CController/VoodooI2CControllerDriver.cpp:263-265 | TX_TL holds the threshold, RX_TL holds 0 and CON holds the bus configuration. ENABLE and INTR_MASK are untouched. |
| Bus.ProgrammedValues | VoodooI2C/VoodooI2C/VoodooI2CController/VoodooI2CControllerDriver.cpp:252-268 | Whatever the registers held before, initialiseBus leaves them holding all the timing, threshold and control values, and keeps ENABLE and INTR_MASK. |
| Bus.QuiescedValues | VoodooI2C/VoodooI2C/VoodooI2CController/VoodooI2CControllerDriver.cpp:486-492 | After the first step of requestTransferI2C, CON holds the bus configuration if the workaround re-initialised a controller that switched off. Otherwise CON is unchanged. TAR and INTR_MASK are kept. |
| Bus.AddressedValues | VoodooI2C/VoodooI2C/VoodooI2CController/VoodooI2CControllerDriver.cpp:495-516 | After addressing, CON and TAR hold the TargetWords of the earlier CON, and INTR_MASK is kept. |
| Bus.ArmedValues | VoodooI2C/VoodooI2C/VoodooI2CController/VoodooI2CControllerDriver.cpp:518-525 | After arming, INTR_MASK is the default mask and ENABLE is 1. CON and TAR are kept. |
| Bus.AddressWrites | VoodooI2C/VoodooI2C/VoodooI2CController/VoodooI2CControllerDriver.cpp:495-516 | The addressing step writes CON first, with its TargetWords value, exactly when that changes CON, and then always TAR with its TargetWords value. |
| Bus.RequestScript | VoodooI2C/VoodooI2C/VoodooI2CController/VoodooI2CControllerDriver.cpp:482-525 | requestTransferI2C consumes only ENABLE_STATUS answers: the answers left are never more than those before it. |
| Bus.InitialisedAfterSetup | VoodooI2C/VoodooI2C/VoodooI2CController/VoodooI2CControllerDriver.cpp:252-268 | Whatever the registers held, initialiseBus on a controller that switches off leaves ENABLE 0 and every timing, threshold and control register programmed. |
| Bus.InitialisedValues | VoodooI2C/VoodooI2C/VoodooI2CController/VoodooI2CControllerDriver.cpp:252-268 | initialiseBus always leaves ENABLE 0, and leaves the registers programmed when the controller switched off. |
| Bus.BusyPolls | VoodooI2C/VoodooI2C/VoodooI2CController/VoodooI2CControllerDriver.cpp:805-821 | This counts the STATUS answers that report activity before the first idle one. |
| Bus.FifoDepths | VoodooI2C/VoodooI2C/VoodooI2CController/VoodooI2CControllerDriver.cpp:81-85 | Both FIFO depths are between 1 and 256. |
| Abort.BitFacts | VoodooI2C/VoodooI2C/VoodooI2CController/VoodooI2CControllerDriver.cpp:167-188 | Each abort reason has a nonzero bit of its own inside the reason bits, distinct from every other reason's bit. |
| Abort.Reasons | VoodooI2C/VoodooI2C/VoodooI2CController/VoodooI2CControllerDriver.cpp:164-191 | A reason is reported exactly when its bit is set in the abort source. |
| Abort.EncodeAmongHas | VoodooI2C/VoodooI2C/VoodooI2CController/VoodooI2CControllerDriver.cpp:164-191 | The word built from a set of reasons has a reason's bit exactly when the reason is in the set. |
| Abort.DecodeEncode | VoodooI2C/VoodooI2C/VoodooI2CController/VoodooI2CControllerDriver.cpp:164-191 | Decoding the word built from any set of reasons gives that set back. |
| Abort.NoReasonBits | VoodooI2C/VoodooI2C/VoodooI2CController/VoodooI2CControllerDriver.cpp:164-191 | An abort source with no reason bit decodes to no reason. |
| Outcome.Classify | VoodooI2C/VoodooI2C/VoodooI2CController/VoodooI2CControllerDriver.cpp:315-326 | A message error gives Error. Otherwise no command error gives Success, the abort marker gives Error and any other command error gives NotReady. Each condition holds in both directions. |
| Outcome.Attempts | VoodooI2C/VoodooI2C/VoodooI2CController/VoodooI2CControllerDriver.cpp:691-702 | transferI2CGated makes between 1 and 6 submissions. Every submission before the last reported NotReady, and a last one before the sixth did not. |
| Outcome.AttemptsFrom | VoodooI2C/VoodooI2C/VoodooI2CController/VoodooI2CControllerDriver.cpp:695-699 | Counting on from the k-th submission, the loop ends after it and by the sixth, with the same stopping rule. |
| Outcome.AbortOnlyErrorsAreNotRetried | VoodooI2C/VoodooI2C/VoodooI2CController/VoodooI2CControllerDriver.cpp:315-326 | When command_error is 0 or the abort marker, the classification is never retried. |
| Engine.CmdWord | VoodooI2C/VoodooI2C/VoodooI2CController/VoodooI2CControllerDriver.cpp:757-775 | A queued command's word carries its stop, restart and read bits, and a write's data byte. |
| Engine.DataCmdWrites | VoodooI2C/VoodooI2C/VoodooI2CController/VoodooI2CControllerDriver.cpp:770-774 | Queueing the commands writes each one's word to DATA_CMD, in order. |
| Engine.Emit | VoodooI2C/VoodooI2C/VoodooI2CController/VoodooI2CControllerDriver.cpp:747-777 | The inner loop issues one command per byte consumed and keeps the earlier commands as a prefix. A pending restart survives only if nothing was issued. For a write, the cursor and length still add up to the message length. |
| Engine.EmitNext | VoodooI2C/VoodooI2C/VoodooI2CController/VoodooI2CControllerDriver.cpp:757-776 | One command consumes one byte and clears the pending restart. |
| Engine.EmitUnfold | VoodooI2C/VoodooI2C/VoodooI2CController/VoodooI2CControllerDriver.cpp:747-777 | The loop goes on from EmitNext while bytes and slots remain and a read is not blocked. A read blocked by the outstanding reads ends the loop and drops the restart. |
| Engine.EmitCommands | VoodooI2C/VoodooI2C/VoodooI2CController/VoodooI2CControllerDriver.cpp:747-777 | Every command the inner loop queues is well formed (CmdOk) for the current message. |
| Engine.EmitOrdered | VoodooI2C/VoodooI2C/VoodooI2CController/VoodooI2CControllerDriver.cpp:747-777 | The inner loop queues its commands in order of decreasing remaining bytes, after every earlier command. |
| Engine.EmitSlots | VoodooI2C/VoodooI2C/VoodooI2CController/VoodooI2CControllerDriver.cpp:744-777 | Each command takes one TX slot and never more slots than were free. The loop stops with bytes left only when the TX or RX slots are exhausted or a read would overrun the RX FIFO. |
| Engine.EmitReads | VoodooI2C/VoodooI2C/VoodooI2CController/VoodooI2CControllerDriver.cpp:765-772 | receive_outstanding grows by exactly one per read token. When it grows, it never exceeds the RX slots. |
| Engine.FillFrom | VoodooI2C/VoodooI2C/VoodooI2CController/VoodooI2CControllerDriver.cpp:715-788 | The outer loop only moves the write index forward, within the messages, and only appends commands. |
| Engine.FillStep | VoodooI2C/VoodooI2C/VoodooI2CController/VoodooI2CControllerDriver.cpp:721-787 | One pass either stops at the message or moves past it to a state the next pass accepts. |
| Engine.FillFromStep | VoodooI2C/VoodooI2C/VoodooI2CController/VoodooI2CControllerDriver.cpp:715-788 | A fill is its first pass followed, unless the fill stops there, by the fill from the next message. |
| Engine.FillBurst | VoodooI2C/VoodooI2C/VoodooI2CController/VoodooI2CControllerDriver.cpp:731-745 | A new message starts at its first byte with its full length, and a write in progress resumes at its saved cursor and length. A new message carries a restart exactly under RESTART_EN with a write index above 0, and a resumed one never does. The slots are the FIFO depths minus TXFLR and RXFLR. |
| Engine.EmitRestarts | VoodooI2C/VoodooI2C/VoodooI2CController/VoodooI2CControllerDriver.cpp:747-777 | Within one message's burst, only the first command can carry a restart, and it does exactly when the burst starts with one. |
| Engine.FillRestarts | VoodooI2C/VoodooI2C/VoodooI2CController/VoodooI2CControllerDriver.cpp:735-777 | The first command a fill queues for a message it enters carries a restart exactly when RESTART_EN is set and the message index is above 0. |
| Engine.PassedAreValid | VoodooI2C/VoodooI2C/VoodooI2CController/VoodooI2CControllerDriver.cpp:721-729 | Every message a fill moves past, and the message a write left in progress belongs to, has the armed address and a nonzero length. |
| Engine.OffenderRaises | VoodooI2C/VoodooI2C/VoodooI2CController/VoodooI2CControllerDriver.cpp:721-729 | A fill that reaches a message with another address or length 0 raises message_error there. It can stop earlier only with a write in progress, and never passes the offender. |
| Engine.FillStops | VoodooI2C/VoodooI2C/VoodooI2CController/VoodooI2CControllerDriver.cpp:715-788 | A fill ends with every message queued, with a write in progress whose cursor lies inside its message, or with message_error raised. A new message error is raised only by a message whose address differs from the entry one or whose length is 0. |
| Engine.FillCommands | VoodooI2C/VoodooI2C/VoodooI2CController/VoodooI2CControllerDriver.cpp:739-777 | Every command of a fill belongs to a message for the armed address. Its stop bit is set exactly on the last byte of the last message, and its read token exactly for read messages. A restart appears only on a message's first byte, with RESTART_EN and an index above 0. A write carries the message's byte at its position. |
| Engine.FillOrdered | VoodooI2C/VoodooI2C/VoodooI2CController/VoodooI2CControllerDriver.cpp:715-788 | A fill queues its commands message by message, and within a message byte by byte. |
| Engine.FillCounts | VoodooI2C/VoodooI2C/VoodooI2CController/VoodooI2CControllerDriver.cpp:744-777 | The TX level grows by one per command and never past the TX depth. receive_outstanding grows by one per read token and, when it grows, never past the RX slots free at the start. |
| Engine.NoCommandForOffender | VoodooI2C/VoodooI2C/VoodooI2CController/VoodooI2CControllerDriver.cpp:721-729 | No DATA_CMD is written for the message that raised message_error, nor for any message after it. |
| Engine.AtMostOneRestart | VoodooI2C/VoodooI2C/VoodooI2CController/VoodooI2CControllerDriver.cpp:739-764 | Within one fill, a message gets at most one restart bit. |
| Engine.Store | VoodooI2C/VoodooI2C/VoodooI2CController/VoodooI2CControllerDriver.cpp:449-452 | Storing received bytes changes only the target message's buffer, and only at the stored positions. |
| Engine.DrainFrom | VoodooI2C/VoodooI2C/VoodooI2CController/VoodooI2CControllerDriver.cpp:427-464 | readFromBus over the messages from the read index on keeps the number of messages and leaves a valid read cursor. |
| Engine.DrainStep | VoodooI2C/VoodooI2C/VoodooI2CController/VoodooI2CControllerDriver.cpp:432-463 | One read message, fresh or resumed at its saved cursor, takes n = min(remaining length, RXFLR) bytes and stores them at the cursor. The FIFO loses them and receive_outstanding drops by n. It saves the advanced cursor with READ_IN_PROGRESS set exactly when bytes remain; otherwise it moves to the next message. |
| Engine.DrainStepOk | VoodooI2C/VoodooI2C/VoodooI2CController/VoodooI2CControllerDriver.cpp:454-463 | A saved read cursor names a read message and a non-empty rest of its buffer. |
| Engine.DrainShape | VoodooI2C/VoodooI2C/VoodooI2CController/VoodooI2CControllerDriver.cpp:427-464 | A drain moves the read index forward. Only the contents of read buffers from the read index on change. |
| Engine.DrainFifo | VoodooI2C/VoodooI2C/VoodooI2CController/VoodooI2CControllerDriver.cpp:445-464 | Bytes come off the front of the RX FIFO, and receive_outstanding drops by exactly the bytes taken. A drain returns with a read in progress only once it has taken every byte RXFLR reported (in the model the FIFO is then empty); otherwise it has passed every message. |
| Engine.DrainOneRead | VoodooI2C/VoodooI2C/VoodooI2CController/VoodooI2CControllerDriver.cpp:437-463 | A single read message receives exactly the first min(length, RXFLR) FIFO bytes, in order. It is left in progress exactly when the FIFO ran short. |
| Engine.TwoDrains | VoodooI2C/VoodooI2C/VoodooI2CController/VoodooI2CControllerDriver.cpp:427-464 | A read message drained over two interrupts holds the bytes of both FIFO batches in order, contiguously: its first n bytes are those of f1 + f2, with n = min(length, |f1| + |f2|). It stays in progress exactly when n is below its length. |
| Engine.TwoReads | VoodooI2C/VoodooI2C/VoodooI2CController/VoodooI2CControllerDriver.cpp:427-464 | One FIFO batch spread over two fresh read messages fills the first one from its front and the second one with the bytes that follow. |
| Controller.Port.Write | VoodooI2C/VoodooI2C/VoodooI2CController/VoodooI2CControllerDriver.cpp:14 | A register write sets the register and is appended to the write log. |
| Controller.Port.Pop | VoodooI2C/VoodooI2C/VoodooI2CController/VoodooI2CControllerDriver.cpp:450 | A DATA_CMD read returns the oldest received byte and removes it from the FIFO. |
| Controller.Port.Clear | VoodooI2C/VoodooI2C/VoodooI2CController/VoodooI2CControllerDriver.cpp:397-418 | Reading clear registers acknowledges exactly the given raw bits. |
| Controller.Port.ClearAll | VoodooI2C/VoodooI2C/VoodooI2CController/VoodooI2CControllerDriver.cpp:679 | A read of CLR_INTR acknowledges every clearable interrupt. |
| Controller.Port.ReadEnableStatus | VoodooI2C/VoodooI2C/VoodooI2CController/VoodooI2CControllerDriver.cpp:656 | ENABLE_STATUS gives the next scripted answer, or what ENABLE holds once the hardware has settled. |
| Controller.Port.ReadStatus | VoodooI2C/VoodooI2C/VoodooI2CController/VoodooI2CControllerDriver.cpp:808 | STATUS gives the next scripted answer, or an idle bus once the script is used up. |
| Controller.Controller.constructor | VoodooI2C/VoodooI2C/VoodooI2CController/VoodooI2CControllerDriver.cpp:240-250 | The record starts zeroed and awake: no messages, cursors and buffer cursors at 0, no errors, a zero timing configuration and zero FIFO depths. The bus configuration is the one start() programs. |
| Controller.Controller.ReadClearInterruptBits | VoodooI2C/VoodooI2C/VoodooI2CController/VoodooI2CControllerDriver.cpp:393-421 | This returns INTR_STAT and acknowledges exactly ClearedBits of it. On TX_ABRT it captures TX_ABRT_SOURCE into abort_source. |
| Controller.Controller.CopyReceived | VoodooI2C/VoodooI2C/VoodooI2CController/VoodooI2CControllerDriver.cpp:446-452 | The copy loop stores the first min(length, RXFLR) FIFO bytes at the cursor, pops them, and lowers receive_outstanding by that many. |
| Controller.Controller.DrainMessage | VoodooI2C/VoodooI2C/VoodooI2CController/VoodooI2CControllerDriver.cpp:432-463 | One read message updates the cursors exactly as DrainStep says. |
| Controller.Controller.DrainMessages | VoodooI2C/VoodooI2C/VoodooI2CController/VoodooI2CControllerDriver.cpp:427-464 | The message loop reaches exactly the state DrainFrom describes. |
| Controller.Controller.ReadFromBus | VoodooI2C/VoodooI2C/VoodooI2CController/VoodooI2CControllerDriver.cpp:423-465 | readFromBus computes DrainFrom and changes only read buffers from the read index on. It keeps the interrupt path's invariant. |
| Controller.Controller.QueueMessage | VoodooI2C/VoodooI2C/VoodooI2CController/VoodooI2CControllerDriver.cpp:747-777 | The inner loop computes Emit and writes exactly its commands' words to DATA_CMD. |
| Controller.Controller.FillMessage | VoodooI2C/VoodooI2C/VoodooI2CController/VoodooI2CControllerDriver.cpp:721-787 | One outer pass computes FillStep and logs its commands. |
| Controller.Controller.FillMessages | VoodooI2C/VoodooI2C/VoodooI2CController/VoodooI2CControllerDriver.cpp:715-788 | The outer loop computes FillFrom and logs its commands. |
| Controller.Controller.TransferMessageToBus | VoodooI2C/VoodooI2C/VoodooI2CController/VoodooI2CControllerDriver.cpp:704-803 | transferMessageToBus computes FillFrom, writes its DATA_CMD words, then writes INTR_MASK as FillMask of the end state. It keeps the interrupt path's invariant. |
| Controller.Controller.AbortTransfer | VoodooI2C/VoodooI2C/VoodooI2CController/VoodooI2CControllerDriver.cpp:211-217 | On TX_ABRT, command_error becomes the abort marker, the status goes idle, receive_outstanding becomes 0 and INTR_MASK is written 0. |
| Controller.Controller.ServiceFifos | VoodooI2C/VoodooI2C/VoodooI2CController/VoodooI2CControllerDriver.cpp:219-224 | On RX_FULL the receive cursor, buffers and RX FIFO become DrainFrom of the old ones, else they are kept. On TX_EMPTY the transmit cursor becomes FillFrom run on what the drain left (messages, RX-FIFO level, outstanding reads), else it keeps its value with the drain's outstanding count. Both bits together are covered. |
| Controller.Controller.DrainPhase | VoodooI2C/VoodooI2C/VoodooI2CController/VoodooI2CControllerDriver.cpp:219-220 | readFromBus runs exactly on RX_FULL: the receive cursor becomes DrainFrom of the old one, else it is unchanged. |
| Controller.Controller.FillPhase | VoodooI2C/VoodooI2C/VoodooI2CController/VoodooI2CControllerDriver.cpp:222-223 | transferMessageToBus runs exactly on TX_EMPTY: the transmit cursor becomes FillFrom of the old one, else it and the registers are unchanged. |
| Controller.Controller.Service | VoodooI2C/VoodooI2C/VoodooI2CController/VoodooI2CControllerDriver.cpp:211-226 | The waiter is woken exactly when TX_ABRT, STOP_DET or message_error holds and no read is outstanding. An abort always wakes it, with mask 0 and nothing else drained or filled. Otherwise command_error is kept and the FIFOs are serviced as ServicedFrom says. |
| Controller.Controller.RetriggerMask | VoodooI2C/VoodooI2C/VoodooI2CController/VoodooI2CControllerDriver.cpp:229-234 | The workaround writes INTR_MASK 0 and then its old value, and leaves every register as it was. |
| Controller.Controller.Respond | VoodooI2C/VoodooI2C/VoodooI2CController/VoodooI2CControllerDriver.cpp:211-234 | After the status bits have been read, the wake-up, abort and FIFO rules of Service hold. A waiter that is not woken gets the mask re-trigger under the workaround: the last two writes are INTR_MASK 0 and then its value. |
| Controller.Controller.Acknowledge | VoodooI2C/VoodooI2C/VoodooI2CController/VoodooI2CControllerDriver.cpp:209-234 | The STOP_DET rule applies to the acknowledgement. abort_source is captured on TX_ABRT. The wake-up, FIFO and workaround rules are as in Respond, for the bits INTR_STAT reported. |
| Controller.Controller.HandleInterrupt | VoodooI2C/VoodooI2C/VoodooI2CController/VoodooI2CControllerDriver.cpp:193-238 | Nothing changes when the driver is asleep, ENABLE is 0, only ACTIVITY is raised or the status reads 0xFFFFFFFF. Otherwise the acknowledgement, abort and wake-up rules hold, and without an abort the RX FIFO is drained and the TX FIFO filled as ServicedFrom says for RX_FULL and TX_EMPTY. |
| Controller.Controller.ToggleBusState | VoodooI2C/VoodooI2C/VoodooI2CController/VoodooI2CControllerDriver.cpp:650-673 | The result is Success exactly when ENABLE_STATUS follows within 1001 polls, Timeout otherwise. ENABLE is written once per poll, and clock gating follows on success. |
| Controller.Controller.PollEnableStatus | VoodooI2C/VoodooI2C/VoodooI2CController/VoodooI2CControllerDriver.cpp:651-662 | The poll loop consumes SettleReads answers, writes ENABLE once per poll, and reports whether bit 0 followed. |
| Controller.Controller.PollEnable | VoodooI2C/VoodooI2C/VoodooI2CController/VoodooI2CControllerDriver.cpp:654-656 | One poll writes ENABLE and reads the next ENABLE_STATUS answer. |
| Controller.Controller.ToggleInterrupts | VoodooI2C/VoodooI2C/VoodooI2CController/VoodooI2CControllerDriver.cpp:675-682 | Off writes INTR_MASK 0. On acknowledges every pending interrupt, then writes the default mask. |
| Controller.Controller.InitialiseBus | VoodooI2C/VoodooI2C/VoodooI2CController/VoodooI2CControllerDriver.cpp:252-268 | The result is Error exactly when the controller does not switch off, and then nothing is programmed. Otherwise the registers are Programmed and the writes are SetupWrites, in order. |
| Controller.Controller.Program | VoodooI2C/VoodooI2C/VoodooI2CController/VoodooI2CControllerDriver.cpp:256-265 | The programming sequence leaves the registers Programmed and logs SetupWrites. |
| Controller.Controller.ProgramTiming | VoodooI2C/VoodooI2C/VoodooI2CController/VoodooI2CControllerDriver.cpp:256-262 | The timing writes leave the registers Timed and log TimingWrites. |
| Controller.Controller.ProgramThresholds | VoodooI2C/VoodooI2C/VoodooI2CController/VoodooI2CControllerDriver.cpp:263-265 | The threshold writes leave the registers Thresholds and log ThresholdWrites. |
| Controller.Controller.GetBusConfig | VoodooI2C/VoodooI2C/VoodooI2CController/VoodooI2CControllerDriver.cpp:78-145 | getBusConfig stores the FIFO depths of COMP_PARAM_1 and the timing and result of BusTiming. |
| Controller.Controller.WaitBusNotBusy | VoodooI2C/VoodooI2C/VoodooI2CController/VoodooI2CControllerDriver.cpp:805-821 | The result is Busy exactly when the bus stays active past the poll limit. The answers read are the polls made. |
| Controller.Controller.Quiesce | VoodooI2C/VoodooI2C/VoodooI2CController/VoodooI2CControllerDriver.cpp:486-492 | With the workaround the bus is re-initialised; otherwise it is switched off. The registers end up as Quiesced says, and the switch-off's ENABLE_STATUS answers are consumed. |
| Controller.Controller.Address | VoodooI2C/VoodooI2C/VoodooI2CController/VoodooI2CControllerDriver.cpp:495-516 | The registers end up Addressed, and the writes are AddressWrites: CON only when TargetWords changes it, then TAR. |
| Controller.Controller.Arm | VoodooI2C/VoodooI2C/VoodooI2CController/VoodooI2CControllerDriver.cpp:518-525 | This masks the interrupts, switches the bus on, then acknowledges everything pending and unmasks the default set; the writes are ArmWrites. The ENABLE_STATUS answers left drop the switch-on polls and the one dummy read (ArmedScript). |
| Controller.Controller.RequestTransfer | VoodooI2C/VoodooI2C/VoodooI2CController/VoodooI2CControllerDriver.cpp:482-526 | After requestTransferI2C, CON and TAR hold the first message's TargetWords, INTR_MASK is the default mask, ENABLE is 1, and every pending interrupt is acknowledged. The ENABLE_STATUS answers left are RequestScript of those before. |
| Controller.Controller.WaitForCompletion | VoodooI2C/VoodooI2C/VoodooI2CController/VoodooI2CControllerDriver.cpp:295-303 | A woken waiter has no read outstanding. A timed-out wait saw no abort. |
| Controller.Controller.Reset | VoodooI2C/VoodooI2C/VoodooI2CController/VoodooI2CControllerDriver.cpp:278-286 | The reset installs the messages with both cursors at 0, no errors, idle status, no abort source and nothing outstanding. |
| Controller.Controller.Submit | VoodooI2C/VoodooI2C/VoodooI2CController/VoodooI2CControllerDriver.cpp:278-303 | After reset, arming and the wait, a woken wait has no read outstanding, and a timed-out one has no error recorded. The ENABLE_STATUS answers left are RequestScript of those before. |
| Controller.Controller.PrepareTransfer | VoodooI2C/VoodooI2C/VoodooI2CController/VoodooI2CControllerDriver.cpp:270-327 | Busy exactly when asleep or the bus stays busy, and then nothing changes. Timeout leaves no error; it ends with the writes of initialiseBus, and the registers Initialised when the controller switched off. Otherwise the controller is switched off (the log ends with those writes) and the result is the classification of the error flags, with the decoded abort reasons on a transmit abort. ENABLE is 0 and the interrupt path's invariant (Valid) holds whenever the result is not Busy. The result is never NotReady. |
| Controller.Controller.Conclude | VoodooI2C/VoodooI2C/VoodooI2CController/VoodooI2CControllerDriver.cpp:299-326 | A wait that timed out gives Timeout after initialiseBus; otherwise the controller is switched off and the result is the classification, with the abort reasons on a transmit abort. ENABLE is 0 either way, the interrupt path's invariant is kept, and the log ends with the writes of that branch. |
| Controller.Controller.TransferGated | VoodooI2C/VoodooI2C/VoodooI2CController/VoodooI2CControllerDriver.cpp:691-702 | The retry loop makes exactly one attempt, within the six allowed, and never returns NotReady. The result is Busy exactly when the driver is asleep or the bus stays busy; Timeout leaves no error; any other result is the classification of the error flags. Unless Busy, the interrupt path's invariant holds on return. |

## Left out

- Logging: `IOLog` diagnostics are not modelled. `handleAbortI2C` returns the set of reasons instead of logging one line per reason.
- Delays: `IODelay` and `IOSleep` are not modelled. Polls are bounded reads from scripted hardware answers.
- Device-nub lifecycle and IOKit plumbing: `probe`, `start` (except the bus configuration word), `stop`, `free`, `publishNubs`, `releaseResources`, `setBusConfigProperties`, `setPowerState`, and `startI2CInterrupt`/`stopI2CInterrupt`.
- Concurrency: the `i2c_bus_lock` and the command gate's `runAction` in `transferI2C` are left out, along with the race between the interrupt and foreground contexts.
- Hardware during a handler: the FIFOs change only between interrupts (`Controller.Port.Deliver`). The RXFLR and TXFLR reads inside one `handleInterrupt` see the FIFOs as the handler left them, so sending and receiving while the handler runs are not modelled.
- Waiting: `commandSleep` with its one-second deadline is modelled as a list of interrupts the hardware raises before the deadline. A wait that no interrupt wakes times out.
- Interrupt nub: `disableInterrupt`/`enableInterrupt` around `handleInterrupt` are not modelled.
- Interrupt clearing: the ten clear-register reads of `readClearInterruptBits` are modelled as one acknowledgement of the bits they clear.
- Status word: `status` is modelled as its two flags, WRITE_IN_PROGRESS and READ_IN_PROGRESS.
- Busy timeout: the `TIMEOUT * 150` bound of `waitBusNotBusyI2C` is a parameter (`busyPollLimit`), because `TIMEOUT` is defined in a header that is not part of this model.
- Clock gating: the name check of `toggleClockGating` is the boolean `clockGating`, and the interrupt-mask workaround flag is the boolean `intrMaskWorkaround`.
- Message count: `message_number` is the length of the message sequence, and a transfer needs at least one message, because `requestTransferI2C` reads the first message unconditionally.
- Buffers: the message buffers are sequences, so the raw buffer pointers and their aliasing are not modelled.
- Controller.Controller.TransferGated: the loop ends with a done flag. Its ensures states that exactly one attempt is made, which follows from PrepareTransfer never reporting NotReady. The general retry rule over arbitrary results is stated by Outcome.Attempts instead.
- Controller.Controller.RequestTransfer: states the values of CON, TAR, INTR_MASK and ENABLE, the acknowledged interrupts and the ENABLE_STATUS answers consumed, not the full write log (Quiesce, Address and Arm state their own writes).
- Controller.Controller.PrepareTransfer: does not state the contents of the message buffers after the transfer. Those are stated one interrupt at a time by ReadFromBus and TransferMessageToBus.
- Controller.Controller.WaitForCompletion: states the completion facts, not the per-interrupt register contents (HandleInterrupt states those).
- Bus.FifoDepths: states only the bounds of the two depths, not their bit extraction.
- Bus.TxThreshold: the TX threshold is half the TX depth, converted to a register word. No integer relation is stated.
- Controller.Port.Deliver: the hardware's own behaviour between interrupts (raw bits, received bytes, sent commands, abort source) is an input, not a model of the controller's logic.

=== FILE: abort.dfy ===
/** The abort classifier: the TX_ABRT_SOURCE bitmask decoded into the set
    of named reasons the driver reports when a transfer is aborted. */
module Abort {
  import opened Types

  datatype AbortReason =
    | AddrNoAck7Bit        // slave address not acknowledged (7-bit mode)
    | Addr1NoAck10Bit      // first address byte not acknowledged (10-bit mode)
    | Addr2NoAck10Bit      // second address byte not acknowledged (10-bit mode)
    | DataNoAck            // data not acknowledged
    | GeneralCallNoAck     // no acknowledgement for a general call
    | GeneralCallRead      // read after general call
    | StartByteAcked       // start byte acknowledged
    | StartByteNoRestart   // start byte sent while restart is disabled
    | Read10BitNoRestart   // 10-bit read while restart is disabled
    | MasterDisabled       // use of a disabled adapter
    | ArbitrationLost      // lost arbitration

  /** The TX_ABRT_SOURCE bit that reports each reason. */
  function Bit(r: AbortReason): Word
  {
    match r
    case AddrNoAck7Bit => 1 << 0
    case Addr1NoAck10Bit => 1 << 1
    case Addr2NoAck10Bit => 1 << 2
    case DataNoAck => 1 << 3
    case GeneralCallNoAck => 1 << 4
    case GeneralCallRead => 1 << 5
    case StartByteAcked => 1 << 7
    case StartByteNoRestart => 1 << 9
    case Read10BitNoRestart => 1 << 10
    case MasterDisabled => 1 << 11
    case ArbitrationLost => 1 << 12
  }

  /** Every bit that names a reason. */
  const ALL_REASON_BITS: Word := 0x1EBF

  /** The reasons in the order the driver reports them. */
  const ALL_REASONS: seq<AbortReason> := [
    AddrNoAck7Bit, Addr1NoAck10Bit, Addr2NoAck10Bit, DataNoAck, GeneralCallNoAck,
    GeneralCallRead, StartByteAcked, StartByteNoRestart, Read10BitNoRestart,
    MasterDisabled, ArbitrationLost]

  function Has(src: Word, r: AbortReason): bool
  {
    src & Bit(r) != 0
  }

  /** Each reason owns one bit of its own, inside ALL_REASON_BITS. */
  lemma BitFacts(a: AbortReason, b: AbortReason)
    ensures a in ALL_REASONS
    ensures Bit(a) != 0 && Bit(a) & !ALL_REASON_BITS == 0
    ensures a != b ==> Bit(a) & Bit(b) == 0
  {
    match a
    case AddrNoAck7Bit => {}
    case Addr1NoAck10Bit => {}
    case Addr2NoAck10Bit => {}
    case DataNoAck => {}
    case GeneralCallNoAck => {}
    case GeneralCallRead => {}
    case StartByteAcked => {}
    case StartByteNoRestart => {}
    case Read10BitNoRestart => {}
    case MasterDisabled => {}
    case ArbitrationLost => {}
  }

  /** handleAbortI2C: the reasons whose bit is set in `src`, one per
      diagnostic line the driver emits. */
  function Reasons(src: Word): (s: set<AbortReason>)
    ensures forall r: AbortReason :: r in s <==> Has(src, r)
  {
    assert forall r: AbortReason :: r in ALL_REASONS by {
      forall r: AbortReason { BitFacts(r, r); }
    }
    set r | r in ALL_REASONS && Has(src, r)
  }

  /** The abort-source word that reports exactly the reasons of `s` among `rs`. */
  function EncodeAmong(s: set<AbortReason>, rs: seq<AbortReason>): (w: Word)
    ensures w & !ALL_REASON_BITS == 0
  {
    if rs == [] then 0
    else
      BitFacts(rs[0], rs[0]);
      (if rs[0] in s then Bit(rs[0]) else 0) | EncodeAmong(s, rs[1..])
  }

  /** The abort-source word that reports exactly the reasons in `s`. */
  function Encode(s: set<AbortReason>): Word
  {
    EncodeAmong(s, ALL_REASONS)
  }

  /** A reason is reported by the union of two words exactly when one of
      them reports it. */
  lemma HasUnion(a: Word, b: Word, r: AbortReason)
    ensures Has(a | b, r) <==> Has(a, r) || Has(b, r)
  {
    assert (a | b) & Bit(r) == (a & Bit(r)) | (b & Bit(r));
  }

  /** The bit of a reason reports that reason and no other. */
  lemma HasBit(a: AbortReason, r: AbortReason)
    ensures Has(Bit(a), r) <==> a == r
  {
    BitFacts(a, r);
    BitFacts(r, r);
  }

  /** The first reason of `rs` is reported by EncodeAmong exactly when it
      is in `s`; the others as by the rest of `rs`. */
  lemma EncodeAmongStep(s: set<AbortReason>, rs: seq<AbortReason>, r: AbortReason)
    requires rs != []
    ensures Has(EncodeAmong(s, rs), r) <==> (rs[0] in s && rs[0] == r) || Has(EncodeAmong(s, rs[1..]), r)
  {
    var first: Word := if rs[0] in s then Bit(rs[0]) else 0;
    HasUnion(first, EncodeAmong(s, rs[1..]), r);
    HasBit(rs[0], r);
  }

  lemma {:induction false} EncodeAmongHas(s: set<AbortReason>, rs: seq<AbortReason>, r: AbortReason)
    ensures Has(EncodeAmong(s, rs), r) <==> r in s && r in rs
  {
    if rs != [] {
      EncodeAmongStep(s, rs, r);
      EncodeAmongHas(s, rs[1..], r);
      assert r in rs <==> r == rs[0] || r in rs[1..];
    }
  }

  /** Decoding the word built from a set of reasons gives that set back:
      the reason bits are distinct. */
  lemma DecodeEncode(s: set<AbortReason>)
    ensures Reasons(Encode(s)) == s
  {
    forall r: AbortReason ensures r in Reasons(Encode(s)) <==> r in s {
      EncodeAmongHas(s, ALL_REASONS, r);
      BitFacts(r, r);
    }
  }

  /** A word with no reason bit decodes to no reason, whatever else is set. */
  lemma NoReasonBits(src: Word)
    requires src & ALL_REASON_BITS == 0
    ensures Reasons(src) == {}
  {
    forall r: AbortReason ensures !Has(src, r) {
      BitFacts(r, r);
    }
  }
}

=== FILE: bus.dfy ===
/** The bus helpers as functions of what the hardware answers: how many
    polls toggleBusState and waitBusNotBusyI2C make, the register writes
    of toggleBusState and initialiseBus, and the FIFO depths read from
    COMP_PARAM_1. */
module Bus {
  import opened Types
  import opened Registers
  import opened Timing

  /** The number of ENABLE writes toggleBusState makes at most: the body of
      its do-while runs once for each value of the count-down from 1000
      to 0. */
  const ENABLE_POLLS: nat := 1001

  /** The value written to ENABLE, which bit 0 of ENABLE_STATUS reports
      back once the controller has followed. */
  function EnableWord(on: bool): (w: Word)
    ensures w & 1 == w
    ensures w != 0 <==> on
  {
    if on then 1 else 0
  }

  /** The number of ENABLE_STATUS answers in `script` before the first
      one whose bit 0 is `w`. Past the end of the script the controller
      has settled and answers `w`, so the count is at most |script|. */
  function SettlePolls(script: seq<Word>, w: Word): (k: nat)
    ensures k <= |script|
    ensures forall i :: 0 <= i < k ==> script[i] & 1 != w
    ensures k < |script| ==> script[k] & 1 == w
  {
    if script == [] then 0
    else if script[0] & 1 == w then 0
    else 1 + SettlePolls(script[1..], w)
  }

  /** Whether toggleBusState sees the controller follow within its polls. */
  predicate Settles(script: seq<Word>, on: bool)
  {
    SettlePolls(script, EnableWord(on)) < ENABLE_POLLS
  }

  /** The number of ENABLE_STATUS answers toggleBusState consumes. */
  function SettleReads(script: seq<Word>, on: bool): (n: nat)
    ensures n <= |script| && n <= ENABLE_POLLS
  {
    Min(Min(SettlePolls(script, EnableWord(on)) + 1, ENABLE_POLLS), |script|)
  }

  /** `n` copies of `x`. */
  function Repeat<T>(x: T, n: nat): (s: seq<T>)
  {
    if n == 0 then [] else Repeat(x, n - 1) + [x]
  }

  /** The register writes of toggleBusState: ENABLE once per poll, and on
      success the private clock-gating register of the platforms that
      have one. */
  function ToggleWrites(script: seq<Word>, on: bool, gating: bool): seq<(Reg, Word)>
  {
    var w := EnableWord(on);
    Repeat((Enable, w), Min(SettlePolls(script, w) + 1, ENABLE_POLLS))
    + (if Settles(script, on) && gating then [(ClockGating, w)] else [])
  }

  /** The registers after toggleBusState has written ENABLE, and the
      clock-gating register when it has one and the controller followed. */
  function Toggled(regs: Regs, on: bool, gating: bool, settled: bool): Regs
  {
    var w := EnableWord(on);
    if settled && gating then regs[Enable := w][ClockGating := w] else regs[Enable := w]
  }

  /** The timing values as initialiseBus writes them to the registers. */
  datatype TimingWords = TimingWords(ssH: Word, ssL: Word, fsH: Word, fsL: Word, hold: Word)

  /** The register words of a timing configuration. */
  function Words(c: TimingConfig): (t: TimingWords)
    ensures t.hold != 0 <==> c.sdaHold != 0
  {
    TimingWords(c.ssHcnt as Word, c.ssLcnt as Word, c.fsHcnt as Word, c.fsLcnt as Word, c.sdaHold as Word)
  }

  /** The timing writes of initialiseBus: the four SCL counts and the SDA
      hold value unless it is zero. */
  function TimingWrites(t: TimingWords): seq<(Reg, Word)>
  {
    [(SsSclHcnt, t.ssH), (SsSclLcnt, t.ssL), (FsSclHcnt, t.fsH), (FsSclLcnt, t.fsL)]
    + (if t.hold != 0 then [(SdaHold, t.hold)] else [])
  }

  /** The TX FIFO threshold initialiseBus programs: half the depth. */
  function TxThreshold(txDepth: U32): Word
  {
    (txDepth / 2) as Word
  }

  /** The last writes of initialiseBus: the TX threshold, the RX threshold
      at zero and the control word. */
  function ThresholdWrites(txTl: Word, con: Word): seq<(Reg, Word)>
  {
    [(TxTl, txTl), (RxTl, 0), (Con, con)]
  }

  /** What toggleBusState leaves in the registers: ENABLE holds the
      requested state; CON, TAR, INTR_MASK and the registers
      initialiseBus programs keep their values. */
  lemma ToggledValues(regs: Regs, on: bool, gating: bool, settled: bool)
    ensures var after := Toggled(regs, on, gating, settled);
      && Get(after, Enable) == EnableWord(on)
      && Get(after, Con) == Get(regs, Con) && Get(after, Tar) == Get(regs, Tar)
      && Get(after, IntrMask) == Get(regs, IntrMask)
  {
  }

  /** The register writes of initialiseBus once the controller is off. */
  function SetupWrites(t: TimingWords, txTl: Word, con: Word): (ws: seq<(Reg, Word)>)
    ensures |ws| == (if t.hold != 0 then 8 else 7)
    ensures ws[0] == (SsSclHcnt, t.ssH) && ws[|ws| - 1] == (Con, con)
    ensures (SdaHold, t.hold) in ws <==> t.hold != 0
  {
    TimingWrites(t) + ThresholdWrites(txTl, con)
  }

  /** The registers after the writes of TimingWrites. */
  function Timed(regs: Regs, t: TimingWords): Regs
  {
    var counts := regs[SsSclHcnt := t.ssH][SsSclLcnt := t.ssL][FsSclHcnt := t.fsH][FsSclLcnt := t.fsL];
    if t.hold != 0 then counts[SdaHold := t.hold] else counts
  }

  /** The registers after the writes of ThresholdWrites. */
  function Thresholds(regs: Regs, txTl: Word, con: Word): Regs
  {
    regs[TxTl := txTl][RxTl := 0][Con := con]
  }

  /** The registers after the writes of SetupWrites. */
  function Programmed(regs: Regs, t: TimingWords, txTl: Word, con: Word): Regs
  {
    Thresholds(Timed(regs, t), txTl, con)
  }

  /** What the timing writes of initialiseBus leave in the registers:
      the four counts, and the SDA hold value when it is nonzero; the
      registers written later, ENABLE and INTR_MASK keep their values. */
  lemma TimedValues(regs: Regs, t: TimingWords)
    ensures var after := Timed(regs, t);
      && Get(after, SsSclHcnt) == t.ssH && Get(after, SsSclLcnt) == t.ssL
      && Get(after, FsSclHcnt) == t.fsH && Get(after, FsSclLcnt) == t.fsL
      && Get(after, SdaHold) == (if t.hold != 0 then t.hold else Get(regs, SdaHold))
      && Get(after, TxTl) == Get(regs, TxTl) && Get(after, RxTl) == Get(regs, RxTl)
      && Get(after, Con) == Get(regs, Con)
      && Get(after, Enable) == Get(regs, Enable) && Get(after, IntrMask) == Get(regs, IntrMask)
  {
  }

  /** What the last writes of initialiseBus leave in the registers. */
  lemma ThresholdValues(regs: Regs, txTl: Word, con: Word)
    ensures var after := Thresholds(regs, txTl, con);
      && Get(after, TxTl) == txTl && Get(after, RxTl) == 0 && Get(after, Con) == con
      && Get(after, Enable) == Get(regs, Enable) && Get(after, IntrMask) == Get(regs, IntrMask)
  {
  }

  /** Whether the register writes `log` end with the writes `ws`. */
  ghost predicate EndsWith(log: seq<(Reg, Word)>, ws: seq<(Reg, Word)>)
  {
    |ws| <= |log| && log[|log| - |ws|..] == ws
  }

  /** Writes appended to a log, in one or two parts, are what it ends with. */
  lemma AppendedEndsWith(log: seq<(Reg, Word)>, ws: seq<(Reg, Word)>, more: seq<(Reg, Word)>)
    ensures EndsWith(log + ws, ws)
    ensures EndsWith(log + ws + more, ws + more)
  {
    assert (log + ws)[|log|..] == ws;
    assert log + ws + more == log + (ws + more);
    assert (log + (ws + more))[|log|..] == ws + more;
  }

  /** What initialiseBus leaves in the registers, whatever they held
      before: the timing values (the SDA hold value only when nonzero),
      the TX threshold, 0 as RX threshold and the control word; ENABLE
      and INTR_MASK keep their values. */
  lemma ProgrammedValues(regs: Regs, t: TimingWords, txTl: Word, con: Word)
    ensures var after := Programmed(regs, t, txTl, con);
      && Get(after, SsSclHcnt) == t.ssH && Get(after, SsSclLcnt) == t.ssL
      && Get(after, FsSclHcnt) == t.fsH && Get(after, FsSclLcnt) == t.fsL
      && Get(after, SdaHold) == (if t.hold != 0 then t.hold else Get(regs, SdaHold))
      && Get(after, TxTl) == txTl && Get(after, RxTl) == 0 && Get(after, Con) == con
      && Get(after, Enable) == Get(regs, Enable) && Get(after, IntrMask) == Get(regs, IntrMask)
  {
    TimedValues(regs, t);
    ThresholdValues(Timed(regs, t), txTl, con);
  }

  /** The registers after the first step of requestTransferI2C: with the
      mask workaround initialiseBus (which programs the bus only once the
      controller is off), otherwise toggleBusState switching off. */
  function Quiesced(regs: Regs, workaround: bool, gating: bool, settled: bool, t: TimingWords, txTl: Word,
                    con: Word): Regs
  {
    var off := Toggled(regs, false, gating, settled);
    if workaround && settled then Programmed(off, t, txTl, con) else off
  }

  /** After the first step of requestTransferI2C, CON holds the bus
      configuration when initialiseBus got the controller off and keeps
      its value otherwise; TAR and INTR_MASK keep theirs. */
  lemma QuiescedValues(regs: Regs, workaround: bool, gating: bool, settled: bool, t: TimingWords, txTl: Word,
                       con: Word)
    ensures var after := Quiesced(regs, workaround, gating, settled, t, txTl, con);
      && Get(after, Con) == (if workaround && settled then con else Get(regs, Con))
      && Get(after, Tar) == Get(regs, Tar) && Get(after, IntrMask) == Get(regs, IntrMask)
  {
    var off := Toggled(regs, false, gating, settled);
    ToggledValues(regs, false, gating, settled);
    if workaround && settled {
      ProgrammedValues(off, t, txTl, con);
      assert Get(Programmed(off, t, txTl, con), Tar) == Get(off, Tar);
    }
  }

  /** The registers after the addressing step of requestTransferI2C: CON
      rewritten only when TargetWords changes it, then TAR. */
  function Addressed(regs: Regs, flags: Word, address: Word): Regs
  {
    var t := TargetWords(Get(regs, Con), flags, address);
    (if t.0 != Get(regs, Con) then regs[Con := t.0] else regs)[Tar := t.1]
  }

  /** The register writes of the addressing step: CON only when
      TargetWords changes it, then TAR. */
  function AddressWrites(con: Word, flags: Word, address: Word): (ws: seq<(Reg, Word)>)
    ensures var t := TargetWords(con, flags, address);
      && |ws| == (if t.0 != con then 2 else 1) && ws[|ws| - 1] == (Tar, t.1)
      && (ws[0].0 == Con <==> t.0 != con) && (t.0 != con ==> ws[0] == (Con, t.0))
  {
    var t := TargetWords(con, flags, address);
    (if t.0 != con then [(Con, t.0)] else []) + [(Tar, t.1)]
  }

  /** After the addressing step, CON and TAR hold the words TargetWords
      computes from the CON value before it, and INTR_MASK keeps its value. */
  lemma AddressedValues(regs: Regs, flags: Word, address: Word)
    ensures var after := Addressed(regs, flags, address);
      var t := TargetWords(Get(regs, Con), flags, address);
      && Get(after, Con) == t.0 && Get(after, Tar) == t.1
      && Get(after, IntrMask) == Get(regs, IntrMask)
  {
  }

  /** The registers after the last step of requestTransferI2C: INTR_MASK
      0, toggleBusState switching on, INTR_MASK back to the default set. */
  function Armed(regs: Regs, gating: bool, settled: bool): Regs
  {
    Toggled(regs[IntrMask := 0], true, gating, settled)[IntrMask := INTR_DEFAULT_MASK]
  }

  /** The register writes of the last step of requestTransferI2C: INTR_MASK
      0, the writes of toggleBusState switching on, then the default mask. */
  function ArmWrites(script: seq<Word>, gating: bool): seq<(Reg, Word)>
  {
    [(IntrMask, 0)] + ToggleWrites(script, true, gating) + [(IntrMask, INTR_DEFAULT_MASK)]
  }

  /** The ENABLE_STATUS answers left after the last step of
      requestTransferI2C: toggleBusState's polls, then the one dummy read. */
  function ArmedScript(script: seq<Word>): seq<Word>
  {
    var polled := script[SettleReads(script, true)..];
    if polled == [] then [] else polled[1..]
  }

  /** The ENABLE_STATUS answers left after requestTransferI2C: those of
      switching the controller off (directly or through initialiseBus),
      then those of ArmedScript. */
  function RequestScript(script: seq<Word>): (rest: seq<Word>)
    ensures |rest| <= |script|
  {
    ArmedScript(script[SettleReads(script, false)..])
  }

  /** What initialiseBus leaves in the registers once the controller is
      off: ENABLE 0 and the programmed timing, threshold and control
      values (the SDA hold value only when nonzero). */
  ghost predicate Initialised(regs: Regs, t: TimingWords, txTl: Word, con: Word)
  {
    && Get(regs, Enable) == 0
    && Get(regs, SsSclHcnt) == t.ssH && Get(regs, SsSclLcnt) == t.ssL
    && Get(regs, FsSclHcnt) == t.fsH && Get(regs, FsSclLcnt) == t.fsL
    && (t.hold != 0 ==> Get(regs, SdaHold) == t.hold)
    && Get(regs, TxTl) == txTl && Get(regs, RxTl) == 0 && Get(regs, Con) == con
  }

  /** initialiseBus from any register contents, when the controller
      switches off, leaves them Initialised. */
  lemma InitialisedAfterSetup(regs: Regs, gating: bool, t: TimingWords, txTl: Word, con: Word)
    ensures Initialised(Programmed(Toggled(regs, false, gating, true), t, txTl, con), t, txTl, con)
  {
    ToggledValues(regs, false, gating, true);
    ProgrammedValues(Toggled(regs, false, gating, true), t, txTl, con);
  }

  /** initialiseBus leaves the controller off and INTR_MASK as it was, and
      the registers Initialised when it switched off. */
  lemma InitialisedValues(regs: Regs, gating: bool, settled: bool, t: TimingWords, txTl: Word, con: Word)
    ensures var off := Toggled(regs, false, gating, settled);
      var after := if settled then Programmed(off, t, txTl, con) else off;
      && Get(after, Enable) == 0 && Get(after, IntrMask) == Get(regs, IntrMask)
      && (settled ==> Initialised(after, t, txTl, con))
  {
    ToggledValues(regs, false, gating, settled);
    if settled {
      InitialisedAfterSetup(regs, gating, t, txTl, con);
      ProgrammedValues(Toggled(regs, false, gating, true), t, txTl, con);
    }
  }

  /** After the last step of requestTransferI2C the default interrupts are
      unmasked and ENABLE is set; CON and TAR keep their values. */
  lemma ArmedValues(regs: Regs, gating: bool, settled: bool)
    ensures var after := Armed(regs, gating, settled);
      && Get(after, IntrMask) == INTR_DEFAULT_MASK && Get(after, Enable) == 1
      && Get(after, Con) == Get(regs, Con) && Get(after, Tar) == Get(regs, Tar)
  {
    ToggledValues(regs[IntrMask := 0], true, gating, settled);
  }

  /** The number of STATUS answers in `script` that report activity
      before the first idle one; past the script the bus is idle. */
  function BusyPolls(script: seq<Word>): (k: nat)
    ensures k <= |script|
    ensures forall i :: 0 <= i < k ==> script[i] & STATUS_ACTIVITY != 0
    ensures k < |script| ==> script[k] & STATUS_ACTIVITY == 0
  {
    if script == [] then 0
    else if script[0] & STATUS_ACTIVITY == 0 then 0
    else 1 + BusyPolls(script[1..])
  }

  /** The TX and RX FIFO depths of COMP_PARAM_1: one more than the bytes
      at bits 16..23 and 8..15. */
  function FifoDepths(param: Word): (d: (U32, U32))
    ensures 1 <= d.0 <= 256 && 1 <= d.1 <= 256
  {
    (((param >> 16) & 0xFF) as int + 1, ((param >> 8) & 0xFF) as int + 1)
  }
}

=== FILE: controller.dfy ===
/** The controller driver: the hardware it talks to (the nub's register
    window, seen as a small machine) and the driver object whose fields
    hold the transfer cursors, with the interrupt path, the bus helpers and
    the submission of a transfer as methods over them. */
module Controller {
  import opened Types
  import opened Registers
  import opened Timing
  import opened Abort
  import opened Outcome
  import opened Engine
  import opened Bus

  /** What the hardware does between two interrupts: the raw interrupt
      bits it raises, the bytes it has received into the RX FIFO, how many
      queued commands it has sent, and the abort source it reports. */
  datatype Irq = Irq(raw: Word, received: seq<Byte>, sent: nat, abortSource: Word)

  /** The controller's register window. Plain registers hold what was last
      written to them; DATA_CMD writes queue into the TX FIFO and DATA_CMD
      reads pop the RX FIFO; INTR_STAT is RAW_INTR_STAT under INTR_MASK and
      reading a clear register acknowledges raw bits; ENABLE_STATUS and
      STATUS are read from scripts of hardware answers, after which the
      hardware has settled. Every write is recorded in `log`. */
  class Port {
    var regs: Regs
    var rawIntr: Word
    var rxFifo: seq<Byte>
    var txLevel: nat
    var enableScript: seq<Word>
    var statusScript: seq<Word>
    ghost var log: seq<(Reg, Word)>

    constructor (regs: Regs, enableScript: seq<Word>, statusScript: seq<Word>)
      ensures this.regs == regs && rawIntr == 0 && rxFifo == [] && txLevel == 0
      ensures this.enableScript == enableScript && this.statusScript == statusScript
      ensures log == []
    {
      this.regs := regs;
      rawIntr := 0;
      rxFifo := [];
      txLevel := 0;
      this.enableScript := enableScript;
      this.statusScript := statusScript;
      log := [];
    }

    /** The value a plain register reads. */
    function Value(r: Reg): Word
      reads this`regs
    {
      Get(regs, r)
    }

    /** DW_IC_INTR_STAT: the raw interrupt bits that are not masked. */
    function IntrStat(): Word
      reads this`rawIntr, this`regs
    {
      rawIntr & Value(IntrMask)
    }

    method Write(r: Reg, v: Word)
      modifies this`regs, this`log
      ensures regs == old(regs)[r := v] && log == old(log) + [(r, v)]
    {
      regs := regs[r := v];
      log := log + [(r, v)];
    }

    /** A write to DATA_CMD: the command joins the TX FIFO. */
    method Queue(w: Word)
      modifies this`txLevel, this`log
      ensures txLevel == old(txLevel) + 1 && log == old(log) + [(DataCmd, w)]
    {
      txLevel := txLevel + 1;
      log := log + [(DataCmd, w)];
    }

    /** A read of DATA_CMD: the oldest received byte. */
    method Pop() returns (b: Byte)
      requires rxFifo != []
      modifies this`rxFifo
      ensures b == old(rxFifo[0]) && rxFifo == old(rxFifo[1..])
    {
      b := rxFifo[0];
      rxFifo := rxFifo[1..];
    }

    /** A read of the clear register of the interrupt bits in `bits`. */
    method Clear(bits: Word)
      modifies this`rawIntr
      ensures rawIntr == old(rawIntr) & !bits
    {
      rawIntr := rawIntr & !bits;
    }

    /** A read of DW_IC_CLR_INTR, which acknowledges every clearable interrupt. */
    method ClearAll()
      modifies this`rawIntr
      ensures rawIntr == AllAcknowledged(old(rawIntr))
    {
      rawIntr := AllAcknowledged(rawIntr);
    }

    /** A read of DW_IC_ENABLE_STATUS: the next scripted answer, or once the
        script is used up, the settled state (what ENABLE holds). */
    method ReadEnableStatus() returns (s: Word)
      modifies this`enableScript
      ensures old(enableScript) != [] ==> s == old(enableScript[0]) && enableScript == old(enableScript[1..])
      ensures old(enableScript) == [] ==> s == Value(Enable) && enableScript == []
    {
      if enableScript != [] {
        s := enableScript[0];
        enableScript := enableScript[1..];
      } else {
        s := Value(Enable);
      }
    }

    /** A read of DW_IC_STATUS: the next scripted answer, or once the script
        is used up, an idle bus. */
    method ReadStatus() returns (s: Word)
      modifies this`statusScript
      ensures old(statusScript) != [] ==> s == old(statusScript[0]) && statusScript == old(statusScript[1..])
      ensures old(statusScript) == [] ==> s == 0 && statusScript == []
    {
      if statusScript != [] {
        s := statusScript[0];
        statusScript := statusScript[1..];
      } else {
        s := 0;
      }
    }

    /** The hardware acts until the next interrupt. */
    method Deliver(irq: Irq)
      modifies this`rawIntr, this`rxFifo, this`txLevel, this`regs
      ensures rawIntr == irq.raw && rxFifo == old(rxFifo) + irq.received
      ensures txLevel == if irq.sent <= old(txLevel) then old(txLevel) - irq.sent else 0
      ensures regs == old(regs)[TxAbrtSource := irq.abortSource]
    {
      rawIntr := irq.raw;
      rxFifo := rxFifo + irq.received;
      txLevel := if irq.sent <= txLevel then txLevel - irq.sent else 0;
      regs := regs[TxAbrtSource := irq.abortSource];
    }
  }

  /** The driver object (its bus_device record and the settings it reads). */
  class Controller {
    const nub: Port
    /** The platform name (the ACPI hardware id). */
    const name: string
    /** The AMD platforms, whose private clock-gating register follows the
        enable state. */
    const clockGating: bool
    /** The interrupt-mask workaround of some platforms. */
    const intrMaskWorkaround: bool
    /** How many times waitBusNotBusyI2C polls past the first read. */
    const busyPollLimit: nat

    var awake: bool
    var config: TimingConfig
    var txDepth: U32
    var rxDepth: U32
    var busConfig: Word
    var messages: seq<Message>
    var writeIndex: nat
    var readIndex: nat
    /** The two flags of the status word: STATUS_WRITE_IN_PROGRESS and
        STATUS_READ_IN_PROGRESS (STATUS_IDLE is both clear). */
    var writeInProgress: bool
    var readInProgress: bool
    var txBuf: nat
    var txLen: nat
    var rxBuf: nat
    var rxLen: nat
    var receiveOutstanding: int
    var messageError: bool
    var commandError: Word
    var abortSource: Word

    /** What the interrupt path relies on between interrupts. */
    ghost predicate Valid()
      reads this`writeIndex, this`writeInProgress, this`txBuf, this`txLen, this`messages,
            this`readIndex, this`readInProgress, this`rxBuf, this`rxLen, this`commandError, nub`regs
    {
      && TxOk() && RxOk() && MaskOk()
      && (commandError == 0 || commandError == ERR_TX_ABRT)
    }

    /** The write index lies within the messages and a write in progress
        names a message and a non-empty rest of it. */
    ghost predicate TxOk()
      reads this`writeIndex, this`writeInProgress, this`txBuf, this`txLen, this`messages
    {
      && writeIndex <= |messages|
      && (writeInProgress ==>
            && writeIndex < |messages|
            && 0 < txLen <= |messages[writeIndex].buf|
            && (!IsRead(messages[writeIndex]) ==> txBuf + txLen == |messages[writeIndex].buf|))
    }

    /** The receive cursor is one the drain engine accepts. */
    ghost predicate RxOk()
      reads this`readIndex, this`readInProgress, this`rxBuf, this`rxLen, this`messages
    {
      DrainOk(Drain(readIndex, readInProgress, rxBuf, rxLen, 0, [], messages))
    }

    /** TX_EMPTY is unmasked only while messages remain to be queued. */
    ghost predicate MaskOk()
      reads this`writeIndex, this`messages, nub`regs
    {
      nub.Value(IntrMask) & INTR_TX_EMPTY != 0 ==> writeIndex < |messages|
    }

    /** The receive cursor as the drain engine sees it. */
    ghost function DrainState(): Drain
      reads this`readIndex, this`readInProgress, this`rxBuf, this`rxLen, this`receiveOutstanding,
            this`messages, nub`rxFifo
    {
      Drain(readIndex, readInProgress, rxBuf, rxLen,
            receiveOutstanding, nub.rxFifo, messages)
    }

    /** The transmit cursor as the fill engine sees it. */
    ghost function TxState(): Fill
      reads this`writeIndex, this`writeInProgress, this`txBuf, this`txLen, this`receiveOutstanding,
            this`messageError, nub`txLevel
    {
      Fill(writeIndex, writeInProgress, txBuf, txLen, receiveOutstanding, messageError,
           nub.txLevel, false, [])
    }

    /** What a fill reads: the messages, the address of the message at the
        write index, RESTART_EN of the bus configuration, the FIFO depths
        and the receive-FIFO level. */
    ghost function TxEnv(): FillEnv
      requires writeIndex < |messages|
      reads this`messages, this`writeIndex, this`busConfig, this`txDepth, this`rxDepth, nub`rxFifo
    {
      FillEnv(messages, messages[writeIndex].address, busConfig & CON_RESTART_EN != 0,
              txDepth, rxDepth, |nub.rxFifo|)
    }

    /** The driver's transmit cursor is the one of `r`. */
    ghost predicate TxAt(r: Fill)
      reads this`writeIndex, this`writeInProgress, this`txBuf, this`txLen, this`receiveOutstanding,
            this`messageError, nub`txLevel
    {
      && writeIndex == r.wi && writeInProgress == r.writing
      && txBuf == r.txBuf && txLen == r.txLen
      && receiveOutstanding == r.outstanding && messageError == r.msgError
      && nub.txLevel == r.txLevel
    }

    /** The cursors after the FIFO branch of handleInterrupt started from
        the receive cursor `d` and the transmit cursor `f`: on RX_FULL the
        receive cursor is DrainFrom(d), otherwise `d`; on TX_EMPTY the
        transmit cursor is FillFrom from `f`, run on the messages, the
        RX-FIFO level and the outstanding reads the drain left, otherwise
        `f` with those outstanding reads. */
    ghost predicate ServicedFrom(d: Drain, f: Fill, rxFull: bool, txEmpty: bool)
      reads this`readIndex, this`readInProgress, this`rxBuf, this`rxLen, this`receiveOutstanding,
            this`messages, nub`rxFifo, this`writeIndex, this`writeInProgress, this`txBuf, this`txLen,
            this`messageError, nub`txLevel, this`busConfig, this`txDepth, this`rxDepth
    {
      && DrainOk(d)
      && var d1 := if rxFull then DrainFrom(d) else d;
      && var f1 := f.(outstanding := d1.outstanding);
      && messages == d1.msgs && readIndex == d1.ri && readInProgress == d1.reading
      && rxBuf == d1.rxBuf && rxLen == d1.rxLen && nub.rxFifo == d1.rxFifo
      && if txEmpty then
           && f.wi < |d1.msgs|
           && var e := FillEnv(d1.msgs, d1.msgs[f.wi].address, busConfig & CON_RESTART_EN != 0,
                               txDepth, rxDepth, |d1.rxFifo|);
           && FillOk(e, f1) && TxAt(FillFrom(e, f1))
         else
           TxAt(f1)
    }

    /** init: a zeroed record, awake; the control word is the one start()
        programs (master, slave disabled, restart enabled, fast speed, and
        bus clear when the firmware left it on). */
    constructor (nub: Port, name: string, clockGating: bool, intrMaskWorkaround: bool, busyPollLimit: nat)
      ensures this.nub == nub && this.name == name && this.clockGating == clockGating
      ensures this.intrMaskWorkaround == intrMaskWorkaround && this.busyPollLimit == busyPollLimit
      ensures awake && messages == [] && writeIndex == 0 && readIndex == 0 && !writeInProgress && !readInProgress
      ensures receiveOutstanding == 0 && !messageError && commandError == 0 && abortSource == 0
      ensures config == TimingConfig(0, 0, 0, 0, 0) && txDepth == 0 && rxDepth == 0
      ensures txBuf == 0 && txLen == 0 && rxBuf == 0 && rxLen == 0
      ensures busConfig == ControlWord(nub.Value(Con))
      ensures nub.Value(IntrMask) & INTR_TX_EMPTY == 0 ==> Valid()
    {
      this.nub := nub;
      this.name := name;
      this.clockGating := clockGating;
      this.intrMaskWorkaround := intrMaskWorkaround;
      this.busyPollLimit := busyPollLimit;
      awake := true;
      config := TimingConfig(0, 0, 0, 0, 0);
      txDepth, rxDepth := 0, 0;
      busConfig := ControlWord(nub.Value(Con));
      messages := [];
      writeIndex, readIndex := 0, 0;
      writeInProgress, readInProgress := false, false;
      txBuf, txLen, rxBuf, rxLen := 0, 0, 0, 0;
      receiveOutstanding := 0;
      messageError := false;
      commandError := 0;
      abortSource := 0;
    }

    /** readClearInterruptBits: read INTR_STAT and acknowledge what it
        reports (ClearedBits), capturing the abort source on a transmit
        abort. */
    method ReadClearInterruptBits() returns (stat: Word, abort: bool, stop: bool, rxFull: bool, txEmpty: bool)
      modifies this`abortSource, nub`rawIntr
      ensures stat == old(nub.IntrStat())
      ensures abort == Raised(stat, INTR_TX_ABRT) && stop == Raised(stat, INTR_STOP_DET)
      ensures rxFull == Raised(stat, INTR_RX_FULL) && txEmpty == Raised(stat, INTR_TX_EMPTY)
      ensures txEmpty && MaskOk() ==> writeIndex < |messages|
      ensures nub.rawIntr == Acknowledged(old(nub.rawIntr), stat, receiveOutstanding)
      ensures abortSource == if abort then nub.Value(TxAbrtSource) else old(abortSource)
    {
      stat := nub.IntrStat();
      abort := stat & INTR_TX_ABRT != 0;
      stop := stat & INTR_STOP_DET != 0;
      rxFull := stat & INTR_RX_FULL != 0;
      txEmpty := stat & INTR_TX_EMPTY != 0;
      if abort {
        abortSource := nub.Value(TxAbrtSource);
      }
      nub.Clear(ClearedBits(stat, receiveOutstanding));
    }

    /** The inner loop of readFromBus: copy received bytes into the read
        message at the read index, from position `buffer`, while the
        message wants more (`length`) and the FIFO has more (`valid`, the
        RXFLR value read for this message). */
    method CopyReceived(length: nat, buffer: nat, valid: nat) returns (left: nat, next: nat)
      requires readIndex < |messages| && buffer + length <= |messages[readIndex].buf|
      requires valid == |nub.rxFifo|
      modifies this`messages, this`receiveOutstanding, nub`rxFifo
      ensures var n := Min(length, valid);
        && left == length - n && next == buffer + n
        && messages == Store(old(messages), readIndex, buffer, old(nub.rxFifo)[..n])
        && nub.rxFifo == old(nub.rxFifo)[n..]
        && receiveOutstanding == old(receiveOutstanding) - n
    {
      ghost var ms := messages;
      ghost var fifo := nub.rxFifo;
      StoreNothing(ms, readIndex, buffer);
      left, next := length, buffer;
      var rest := valid;
      ghost var k := 0;
      while left > 0 && rest > 0
        invariant left + k == length && rest + k == valid && next == buffer + k
        invariant nub.rxFifo == fifo[k..]
        invariant receiveOutstanding == old(receiveOutstanding) - k
        invariant messages == Store(ms, readIndex, buffer, fifo[..k])
        decreases left
      {
        var b := nub.Pop();
        StoreStep(ms, readIndex, buffer, fifo[..k], b);
        assert fifo[..k] + [b] == fifo[..k + 1];
        messages := messages[readIndex := messages[readIndex].(buf := messages[readIndex].buf[next := b])];
        next := next + 1;
        left := left - 1;
        rest := rest - 1;
        receiveOutstanding := receiveOutstanding - 1;
        k := k + 1;
      }
    }

    /** One read message of readFromBus: resume the read in progress or
        start at the first byte, copy what the FIFO holds, and either leave
        the read in progress (`pending`) or finish it and move on. */
    method DrainMessage() returns (pending: bool)
      requires DrainOk(DrainState()) && readIndex < |messages| && IsRead(messages[readIndex])
      modifies this`messages, this`readIndex, this`readInProgress, this`rxBuf, this`rxLen,
               this`receiveOutstanding, nub`rxFifo
      ensures DrainState() == DrainStep(old(DrainState())) && DrainOk(DrainState())
      ensures pending == DrainState().reading
    {
      ghost var d := DrainState();
      var length: nat := if readInProgress then rxLen else |messages[readIndex].buf|;
      var buffer: nat := if readInProgress then rxBuf else 0;
      var valid := |nub.rxFifo|;
      length, buffer := CopyReceived(length, buffer, valid);
      pending := length > 0;
      readInProgress := pending;
      if pending {
        rxLen := length;
        rxBuf := buffer;
      } else {
        readIndex := readIndex + 1;
      }
      DrainStepOk(d, DrainState());
    }

    /** The loop of readFromBus over the messages from the read index on. */
    method DrainMessages()
      requires DrainOk(DrainState())
      modifies this`messages, this`readIndex, this`readInProgress, this`rxBuf, this`rxLen,
               this`receiveOutstanding, nub`rxFifo
      ensures DrainState() == DrainFrom(old(DrainState()))
    {
      while readIndex < |messages|
        invariant DrainOk(DrainState()) && DrainFrom(DrainState()) == DrainFrom(old(DrainState()))
        decreases |messages| - readIndex
      {
        if !IsRead(messages[readIndex]) {
          readIndex := readIndex + 1;
        } else {
          var pending := DrainMessage();
          if pending {
            return;
          }
        }
      }
    }

    /** readFromBus: drain the RX FIFO into the read messages from the read
        index on, exactly as DrainFrom describes; only read buffers from the
        read index on change, and the interrupt path's invariant is kept. */
    method ReadFromBus()
      requires Valid()
      modifies this`messages, this`readIndex, this`readInProgress, this`rxBuf, this`rxLen,
               this`receiveOutstanding, nub`rxFifo
      ensures Valid()
      ensures DrainState() == DrainFrom(old(DrainState()))
      ensures SameShape(old(messages), messages, old(readIndex))
    {
      ghost var d := DrainState();
      DrainMessages();
      DrainShape(d, DrainState());
      assert writeIndex < |messages| ==>
        && messages[writeIndex].flags == old(messages)[writeIndex].flags
        && |messages[writeIndex].buf| == |old(messages)[writeIndex].buf|;
    }

    /** The inner loop of transferMessageToBus for the message at the write
        index: queue one command per byte while TX slots (`tl`) and RX slots
        (`rl`) last, the first one carrying a pending restart; a read stops
        when the outstanding reads would reach the RX slots. */
    method QueueMessage(ghost e: FillEnv, ghost log0: seq<(Reg, Word)>, ghost cmds: seq<Cmd>,
                        buffer: nat, length: nat, tl: int, rl: int, restart: bool)
      returns (next: nat, left: nat, restarting: bool, ghost queued: seq<Cmd>)
      requires e.msgs == messages && writeIndex < |messages|
      requires !IsRead(messages[writeIndex]) ==> buffer + length == |messages[writeIndex].buf|
      requires nub.log == log0 + DataCmdWrites(cmds)
      modifies this`receiveOutstanding, nub`txLevel, nub`log
      ensures var r := Emit(e, writeIndex, Burst(buffer, length, tl, rl, restart,
                                                 old(receiveOutstanding), old(nub.txLevel), cmds));
        && next == r.buf && left == r.len && restarting == r.restart && queued == r.cmds
        && receiveOutstanding == r.outstanding && nub.txLevel == r.txLevel
        && nub.log == log0 + DataCmdWrites(r.cmds)
    {
      ghost var target := Emit(e, writeIndex, Burst(buffer, length, tl, rl, restart,
                                                    receiveOutstanding, nub.txLevel, cmds));
      next, left, restarting, queued := buffer, length, restart, cmds;
      var txSlots, rxSlots := tl, rl;
      ghost var cur := Burst(next, left, txSlots, rxSlots, restarting, receiveOutstanding, nub.txLevel, queued);
      while left > 0 && txSlots > 0 && rxSlots > 0
        invariant !IsRead(messages[writeIndex]) ==> next + left == |messages[writeIndex].buf|
        invariant next == cur.buf && left == cur.len && txSlots == cur.tl && rxSlots == cur.rl
        invariant restarting == cur.restart && receiveOutstanding == cur.outstanding
        invariant nub.txLevel == cur.txLevel && queued == cur.cmds
        invariant Emit(e, writeIndex, cur) == target
        invariant nub.log == log0 + DataCmdWrites(queued)
        decreases left
      {
        EmitUnfold(e, writeIndex, cur);
        var stop := writeIndex == |messages| - 1 && left == 1;
        var first := restarting;
        restarting := false;
        var c;
        if IsRead(messages[writeIndex]) {
          if rxSlots - receiveOutstanding <= 0 {
            break;
          }
          c := Cmd(writeIndex, left, stop, first, true, 0);
          rxSlots := rxSlots - 1;
          receiveOutstanding := receiveOutstanding + 1;
        } else {
          c := Cmd(writeIndex, left, stop, first, false, messages[writeIndex].buf[next]);
          next := next + 1;
        }
        nub.Queue(CmdWord(c));
        DataCmdWritesSnoc(log0, queued, c);
        queued := queued + [c];
        txSlots := txSlots - 1;
        left := left - 1;
        cur := EmitNext(e, writeIndex, cur);
      }
    }

    /** One pass of transferMessageToBus's outer loop, for the message at
        the write index, as FillStep describes: `stopped` when the fill
        ends at this message. (The restart flag of the loop is always clear
        when a pass begins, so it is local to the pass here.) */
    method FillMessage(ghost e: FillEnv, ghost log0: seq<(Reg, Word)>, ghost cmds: seq<Cmd>,
                       address: Word, restartEn: bool)
      returns (stopped: bool, ghost queued: seq<Cmd>)
      requires writeIndex < |messages| && FillOk(e, TxState().(cmds := cmds))
      requires e == FillEnv(messages, address, restartEn, txDepth, rxDepth, |nub.rxFifo|)
      requires nub.log == log0 + DataCmdWrites(cmds)
      modifies this`writeIndex, this`writeInProgress, this`txBuf, this`txLen,
               this`receiveOutstanding, this`messageError, nub`txLevel, nub`log
      ensures var s := FillStep(e, old(TxState()).(cmds := cmds));
        && TxAt(s) && queued == s.cmds && stopped == (s.wi == old(writeIndex))
        && nub.log == log0 + DataCmdWrites(s.cmds)
    {
      var m := messages[writeIndex];
      if m.address != address || |m.buf| == 0 {
        messageError := true;
        return true, cmds;
      }
      var buffer, length := txBuf, txLen;
      var restart := false;
      if !writeInProgress {
        buffer, length := 0, |m.buf|;
        if restartEn && writeIndex > 0 {
          restart := true;
        }
      }
      var tl := txDepth - nub.txLevel;
      var rl := rxDepth - |nub.rxFifo|;
      assert Burst(buffer, length, tl, rl, restart, receiveOutstanding, nub.txLevel, cmds)
             == FillBurst(e, TxState().(cmds := cmds));
      buffer, length, restart, queued := QueueMessage(e, log0, cmds, buffer, length, tl, rl, restart);
      txBuf, txLen := buffer, length;
      stopped := length > 0;
      writeInProgress := stopped;
      if !stopped {
        writeIndex := writeIndex + 1;
      }
    }

    /** The outer loop of transferMessageToBus: the messages from the write
        index on, one FillMessage pass each, until the fill stops. */
    method FillMessages(ghost e: FillEnv) returns (ghost r: Fill)
      requires writeIndex < |messages| && FillOk(e, TxState())
      requires e == FillEnv(messages, messages[writeIndex].address, busConfig & CON_RESTART_EN != 0,
                            txDepth, rxDepth, |nub.rxFifo|)
      modifies this`writeIndex, this`writeInProgress, this`txBuf, this`txLen,
               this`receiveOutstanding, this`messageError, nub`txLevel, nub`log
      ensures r == FillFrom(e, old(TxState())) && TxAt(r)
      ensures nub.log == old(nub.log) + DataCmdWrites(r.cmds)
    {
      r := FillFrom(e, TxState());
      ghost var log0 := nub.log;
      ghost var cmds: seq<Cmd> := [];
      var address := messages[writeIndex].address;
      var restartEn := busConfig & CON_RESTART_EN != 0;
      while writeIndex < |messages|
        invariant FillOk(e, TxState().(cmds := cmds)) && FillFrom(e, TxState().(cmds := cmds)) == r
        invariant nub.log == log0 + DataCmdWrites(cmds)
        decreases |messages| - writeIndex
      {
        ghost var f := TxState().(cmds := cmds);
        var stopped;
        stopped, cmds := FillMessage(e, log0, cmds, address, restartEn);
        FillFromStep(e, f, FillStep(e, f));
        if stopped {
          break;
        }
      }
    }

    /** transferMessageToBus: queue commands for the messages from the write
        index on, exactly as FillFrom describes, then program the interrupt
        mask: TX_EMPTY off once every message is queued, everything off
        after a message error. The interrupt path's invariant is kept. */
    method TransferMessageToBus()
      requires Valid() && writeIndex < |messages|
      modifies this`writeIndex, this`writeInProgress, this`txBuf, this`txLen,
               this`receiveOutstanding, this`messageError, nub`txLevel, nub`log, nub`regs
      ensures TxAt(FillFrom(old(TxEnv()), old(TxState())))
      ensures var r := FillFrom(old(TxEnv()), old(TxState()));
        nub.regs == old(nub.regs)[IntrMask := FillMask(r.wi == |messages|, r.msgError)]
      ensures var r := FillFrom(old(TxEnv()), old(TxState()));
        nub.log == old(nub.log) + DataCmdWrites(r.cmds) + [(IntrMask, FillMask(r.wi == |messages|, r.msgError))]
      ensures Valid()
    {
      ghost var start := TxState();
      ghost var r := FillMessages(TxEnv());
      FillStops(old(TxEnv()), start, r);
      var mask := FillMask(writeIndex == |messages|, messageError);
      nub.Write(IntrMask, mask);
    }

    /** Whether handleInterrupt acts on what the hardware raised: the
        driver is awake, ENABLE is set and RAW_INTR_STAT is serviceable. */
    ghost predicate Acts()
      reads this`awake, nub`regs, nub`rawIntr
    {
      awake && nub.Value(Enable) != 0 && Serviceable(nub.rawIntr)
    }

    /** The transmit-abort branch of handleInterrupt: command_error gets
        the abort marker, the status goes idle, no read is outstanding any
        more and every interrupt is masked. */
    method AbortTransfer()
      requires Valid()
      modifies this`commandError, this`writeInProgress, this`readInProgress,
               this`receiveOutstanding, nub`regs, nub`log
      ensures commandError == old(commandError) | ERR_TX_ABRT == ERR_TX_ABRT
      ensures !writeInProgress && !readInProgress && receiveOutstanding == 0
      ensures nub.regs == old(nub.regs)[IntrMask := 0] && nub.log == old(nub.log) + [(IntrMask, 0)]
      ensures Valid()
    {
      commandError := commandError | ERR_TX_ABRT;
      writeInProgress, readInProgress := false, false;
      receiveOutstanding := 0;
      nub.Write(IntrMask, 0);
    }

    /** The RX_FULL half of handleInterrupt's FIFO branch: readFromBus
        when the bit is raised. */
    method DrainPhase(rxFull: bool)
      requires Valid()
      modifies this`messages, this`readIndex, this`readInProgress, this`rxBuf, this`rxLen,
               this`receiveOutstanding, nub`rxFifo
      ensures Valid()
      ensures DrainState() == if rxFull then DrainFrom(old(DrainState())) else old(DrainState())
    {
      if rxFull {
        ReadFromBus();
      }
    }

    /** The TX_EMPTY half of handleInterrupt's FIFO branch:
        transferMessageToBus when the bit is raised. */
    method FillPhase(txEmpty: bool)
      requires Valid() && (txEmpty ==> writeIndex < |messages|)
      modifies this`writeIndex, this`writeInProgress, this`txBuf, this`txLen,
               this`receiveOutstanding, this`messageError, nub`txLevel, nub`log, nub`regs
      ensures Valid()
      ensures nub.Value(TxAbrtSource) == old(nub.Value(TxAbrtSource))
      ensures txEmpty ==> FillOk(old(TxEnv()), old(TxState())) && TxAt(FillFrom(old(TxEnv()), old(TxState())))
      ensures !txEmpty ==> TxAt(old(TxState())) && unchanged(nub`log, nub`regs)
    {
      if txEmpty {
        TransferMessageToBus();
      }
    }

    /** The FIFO branch of handleInterrupt: readFromBus on RX_FULL, then
        transferMessageToBus on TX_EMPTY, from the state the drain left
        (ServicedFrom). */
    method ServiceFifos(rxFull: bool, txEmpty: bool)
      requires Valid() && (txEmpty ==> writeIndex < |messages|)
      modifies this`messages, this`readIndex, this`readInProgress, this`rxBuf, this`rxLen,
               this`receiveOutstanding, nub`rxFifo,
               this`writeIndex, this`writeInProgress, this`txBuf, this`txLen,
               this`messageError, nub`txLevel, nub`log, nub`regs
      ensures Valid()
      ensures nub.Value(TxAbrtSource) == old(nub.Value(TxAbrtSource))
      ensures ServicedFrom(old(DrainState()), old(TxState()), rxFull, txEmpty)
    {
      ghost var d := DrainState();
      ghost var f := TxState();
      DrainPhase(rxFull);
      FillPhase(txEmpty);
    }

    /** handleInterrupt after the status word has been read and cleared,
        with its TX_ABRT, STOP_DET, RX_FULL and TX_EMPTY bits: on a
        transmit abort record it and mask everything, otherwise drain the
        RX FIFO on RX_FULL and fill the TX FIFO on TX_EMPTY. The waiter is
        woken exactly when an abort, a stop or a message error has been
        seen and no read is outstanding. */
    method Service(abort: bool, stop: bool, rxFull: bool, txEmpty: bool) returns (woken: bool)
      requires Valid() && (!abort && txEmpty ==> writeIndex < |messages|)
      modifies this`commandError, this`writeInProgress, this`readInProgress,
               this`receiveOutstanding, this`messages, this`readIndex,
               this`rxBuf, this`rxLen, this`writeIndex, this`txBuf, this`txLen,
               this`messageError, nub`regs, nub`log, nub`rxFifo, nub`txLevel
      ensures Valid()
      ensures woken <==> (abort || stop || messageError) && receiveOutstanding == 0
      ensures abort ==>
        && woken && commandError == ERR_TX_ABRT
        && !writeInProgress && !readInProgress && receiveOutstanding == 0
        && nub.regs == old(nub.regs)[IntrMask := 0]
        && unchanged(this`messages, this`readIndex, this`writeIndex, this`messageError,
                     nub`rxFifo, nub`txLevel)
      ensures !abort ==> commandError == old(commandError)
      ensures !abort ==> ServicedFrom(old(DrainState()), old(TxState()), rxFull, txEmpty)
      ensures nub.Value(TxAbrtSource) == old(nub.Value(TxAbrtSource))
    {
      if abort {
        AbortTransfer();
      } else {
        ServiceFifos(rxFull, txEmpty);
      }
      woken := (abort || stop || messageError) && receiveOutstanding == 0;
    }

    /** The interrupt-mask workaround: write INTR_MASK 0 and then its old
        value back, so that a pending interrupt is raised again. */
    method RetriggerMask()
      requires Valid()
      modifies nub`regs, nub`log
      ensures nub.regs == old(nub.regs)[IntrMask := old(nub.Value(IntrMask))]
      ensures Valid() && nub.Value(IntrMask) == old(nub.Value(IntrMask))
      ensures nub.Value(TxAbrtSource) == old(nub.Value(TxAbrtSource))
      ensures nub.log == old(nub.log) + [(IntrMask, 0), (IntrMask, nub.Value(IntrMask))]
      ensures EndsWith(nub.log, [(IntrMask, 0), (IntrMask, nub.Value(IntrMask))])
    {
      var mask := nub.Value(IntrMask);
      nub.Write(IntrMask, 0);
      nub.Write(IntrMask, mask);
      AppendedEndsWith(old(nub.log), [(IntrMask, 0), (IntrMask, mask)], []);
    }

    /** The part of handleInterrupt after readClearInterruptBits: service
        the bits (Service), and when the waiter is not woken and the mask
        workaround is on, write the mask 0 and back. */
    method Respond(abort: bool, stop: bool, rxFull: bool, txEmpty: bool) returns (woken: bool)
      requires Valid() && (!abort && txEmpty ==> writeIndex < |messages|)
      modifies this`commandError, this`writeInProgress, this`readInProgress,
               this`receiveOutstanding, this`messages, this`readIndex,
               this`rxBuf, this`rxLen, this`writeIndex, this`txBuf, this`txLen,
               this`messageError, nub`regs, nub`log, nub`rxFifo, nub`txLevel
      ensures Valid()
      ensures nub.Value(TxAbrtSource) == old(nub.Value(TxAbrtSource))
      ensures woken <==> (abort || stop || messageError) && receiveOutstanding == 0
      ensures abort ==> woken && commandError == ERR_TX_ABRT && receiveOutstanding == 0
                        && nub.Value(IntrMask) == 0
      ensures !abort ==> commandError == old(commandError)
      ensures !abort ==> ServicedFrom(old(DrainState()), old(TxState()), rxFull, txEmpty)
      ensures !woken && intrMaskWorkaround ==>
        EndsWith(nub.log, [(IntrMask, 0), (IntrMask, nub.Value(IntrMask))])
    {
      woken := Service(abort, stop, rxFull, txEmpty);
      if !woken && intrMaskWorkaround {
        RetriggerMask();
      }
    }

    /** The serviceable part of handleInterrupt: read and clear INTR_STAT,
        then Respond to what it reported. */
    method Acknowledge() returns (stat: Word, abort: bool, stop: bool, woken: bool)
      requires Valid()
      modifies this`commandError, this`writeInProgress, this`readInProgress,
               this`receiveOutstanding, this`abortSource, this`messages, this`readIndex,
               this`rxBuf, this`rxLen, this`writeIndex, this`txBuf, this`txLen,
               this`messageError, nub`rawIntr, nub`regs, nub`log, nub`rxFifo, nub`txLevel
      ensures Valid()
      ensures stat == old(nub.IntrStat())
      ensures abort == Raised(stat, INTR_TX_ABRT) && stop == Raised(stat, INTR_STOP_DET)
      ensures nub.rawIntr == Acknowledged(old(nub.rawIntr), stat, old(receiveOutstanding))
      ensures abortSource == if abort then old(nub.Value(TxAbrtSource)) else old(abortSource)
      ensures woken <==> (abort || stop || messageError) && receiveOutstanding == 0
      ensures abort ==> woken && commandError == ERR_TX_ABRT && receiveOutstanding == 0
                        && nub.Value(IntrMask) == 0
      ensures !abort ==> commandError == old(commandError)
      ensures !abort ==> ServicedFrom(old(DrainState()), old(TxState()),
                                      Raised(stat, INTR_RX_FULL), Raised(stat, INTR_TX_EMPTY))
      ensures !woken && intrMaskWorkaround ==>
        EndsWith(nub.log, [(IntrMask, 0), (IntrMask, nub.Value(IntrMask))])
    {
      var rxFull, txEmpty;
      stat, abort, stop, rxFull, txEmpty := ReadClearInterruptBits();
      woken := Respond(abort, stop, rxFull, txEmpty);
    }

    /** handleInterrupt: nothing happens unless the driver is awake, ENABLE
        is set and the raw interrupt word is serviceable; then INTR_STAT is
        acknowledged and serviced as Acknowledge describes. */
    method HandleInterrupt() returns (woken: bool)
      requires Valid()
      modifies this`commandError, this`writeInProgress, this`readInProgress,
               this`receiveOutstanding, this`abortSource, this`messages, this`readIndex,
               this`rxBuf, this`rxLen, this`writeIndex, this`txBuf, this`txLen,
               this`messageError, nub`rawIntr, nub`regs, nub`log, nub`rxFifo, nub`txLevel
      ensures Valid()
      ensures !old(Acts()) ==> !woken && unchanged(this) && unchanged(nub)
      ensures old(Acts()) ==>
        nub.rawIntr == Acknowledged(old(nub.rawIntr), old(nub.IntrStat()), old(receiveOutstanding))
      ensures old(Acts()) ==>
        (woken <==> (Raised(old(nub.IntrStat()), INTR_TX_ABRT) || Raised(old(nub.IntrStat()), INTR_STOP_DET)
                     || messageError) && receiveOutstanding == 0)
      ensures old(Acts()) && Raised(old(nub.IntrStat()), INTR_TX_ABRT) ==>
        && woken && commandError == ERR_TX_ABRT && receiveOutstanding == 0
        && nub.Value(IntrMask) == 0 && abortSource == old(nub.Value(TxAbrtSource))
      ensures old(Acts()) && !Raised(old(nub.IntrStat()), INTR_TX_ABRT) ==>
        commandError == old(commandError) && abortSource == old(abortSource)
      ensures old(Acts()) && !Raised(old(nub.IntrStat()), INTR_TX_ABRT) ==>
        ServicedFrom(old(DrainState()), old(TxState()),
                     Raised(old(nub.IntrStat()), INTR_RX_FULL), Raised(old(nub.IntrStat()), INTR_TX_EMPTY))
    {
      if !awake {
        return false;
      }
      var enabled := nub.Value(Enable);
      var raw := nub.rawIntr;
      if enabled == 0 || !Serviceable(raw) {
        return false;
      }
      var stat, abort, stop;
      stat, abort, stop, woken := Acknowledge();
    }

    /** toggleBusState: write ENABLE and poll ENABLE_STATUS until bit 0
        follows, at most ENABLE_POLLS times; on success the clock-gating
        register of the AMD platforms follows too. */
    method ToggleBusState(on: bool) returns (r: IOReturn)
      modifies nub`regs, nub`log, nub`enableScript
      ensures r == if Settles(old(nub.enableScript), on) then Success else Timeout
      ensures nub.enableScript == old(nub.enableScript)[SettleReads(old(nub.enableScript), on)..]
      ensures nub.log == old(nub.log) + ToggleWrites(old(nub.enableScript), on, clockGating)
      ensures nub.regs == Toggled(old(nub.regs), on, clockGating, r == Success)
      ensures nub.Value(Enable) == EnableWord(on)
    {
      ghost var regs := nub.regs;
      var w := EnableWord(on);
      var settled := PollEnableStatus(on);
      if settled {
        if clockGating {
          nub.Write(ClockGating, w);
        }
        r := Success;
      } else {
        r := Timeout;
      }
      ToggledValues(regs, on, clockGating, r == Success);
    }

    /** The polling loop of toggleBusState: ENABLE is written and
        ENABLE_STATUS read once, then again while bit 0 has not followed,
        up to a thousand more times. */
    method PollEnableStatus(on: bool) returns (settled: bool)
      modifies nub`regs, nub`log, nub`enableScript
      ensures settled == Settles(old(nub.enableScript), on)
      ensures nub.enableScript == old(nub.enableScript)[SettleReads(old(nub.enableScript), on)..]
      ensures nub.regs == old(nub.regs)[Enable := EnableWord(on)]
      ensures nub.log == old(nub.log) +
        Repeat((Enable, EnableWord(on)), Min(SettlePolls(old(nub.enableScript), EnableWord(on)) + 1, ENABLE_POLLS))
    {
      var w := EnableWord(on);
      ghost var script := nub.enableScript;
      ghost var k := SettlePolls(script, w);
      var timeout := 1000;
      var status := PollEnable(w);
      while status & 1 != w && timeout > 0
        invariant 0 <= timeout <= 1000 && 1000 - timeout <= k
        invariant status & 1 == w <==> k == 1000 - timeout
        invariant nub.enableScript == script[Min(1001 - timeout, |script|)..]
        invariant nub.regs == old(nub.regs)[Enable := w]
        invariant nub.log == old(nub.log) + Repeat((Enable, w), 1001 - timeout)
        decreases timeout
      {
        timeout := timeout - 1;
        status := PollEnable(w);
      }
      settled := status & 1 == w;
    }

    /** One pass of toggleBusState's polling loop: write ENABLE, then read
        ENABLE_STATUS. */
    method PollEnable(w: Word) returns (status: Word)
      modifies nub`regs, nub`log, nub`enableScript
      ensures nub.regs == old(nub.regs)[Enable := w] && nub.log == old(nub.log) + [(Enable, w)]
      ensures old(nub.enableScript) != [] ==>
        status == old(nub.enableScript)[0] && nub.enableScript == old(nub.enableScript)[1..]
      ensures old(nub.enableScript) == [] ==> status == w && nub.enableScript == []
    {
      nub.Write(Enable, w);
      status := nub.ReadEnableStatus();
    }

    /** toggleInterrupts: off masks every interrupt; on acknowledges every
        pending interrupt (a read of CLR_INTR) and unmasks the default set. */
    method ToggleInterrupts(on: bool)
      modifies nub`regs, nub`log, nub`rawIntr
      ensures nub.regs == old(nub.regs)[IntrMask := if on then INTR_DEFAULT_MASK else 0]
      ensures nub.log == old(nub.log) + [(IntrMask, if on then INTR_DEFAULT_MASK else 0)]
      ensures nub.rawIntr == if on then AllAcknowledged(old(nub.rawIntr)) else old(nub.rawIntr)
    {
      if !on {
        nub.Write(IntrMask, 0);
      } else {
        nub.ClearAll();
        nub.Write(IntrMask, INTR_DEFAULT_MASK);
      }
    }

    /** initialiseBus: switch the controller off, then program the timing
        values, the FIFO thresholds and the control word (see
        ProgrammedValues for what the registers then hold); an error when
        the controller does not switch off. */
    method InitialiseBus() returns (r: IOReturn)
      modifies nub`regs, nub`log, nub`enableScript
      ensures r == if Settles(old(nub.enableScript), false) then Success else Error
      ensures nub.enableScript == old(nub.enableScript)[SettleReads(old(nub.enableScript), false)..]
      ensures var off := Toggled(old(nub.regs), false, clockGating, r == Success);
        nub.regs == if r == Success then Programmed(off, Words(config), TxThreshold(txDepth), busConfig) else off
      ensures nub.log == old(nub.log) + ToggleWrites(old(nub.enableScript), false, clockGating)
        + if r == Success then SetupWrites(Words(config), TxThreshold(txDepth), busConfig) else []
    {
      var off := ToggleBusState(false);
      if off != Success {
        return Error;
      }
      Program(Words(config), TxThreshold(txDepth), busConfig);
      r := Success;
    }

    /** The writes of initialiseBus once the controller is off. */
    method Program(t: TimingWords, txTl: Word, con: Word)
      modifies nub`regs, nub`log
      ensures nub.regs == Programmed(old(nub.regs), t, txTl, con)
      ensures nub.log == old(nub.log) + SetupWrites(t, txTl, con)
    {
      ghost var log := nub.log;
      ProgramTiming(t);
      ProgramThresholds(txTl, con);
      assert log + TimingWrites(t) + ThresholdWrites(txTl, con)
          == log + (TimingWrites(t) + ThresholdWrites(txTl, con));
    }

    /** The timing writes of initialiseBus. */
    method ProgramTiming(t: TimingWords)
      modifies nub`regs, nub`log
      ensures nub.regs == Timed(old(nub.regs), t)
      ensures nub.log == old(nub.log) + TimingWrites(t)
    {
      nub.Write(SsSclHcnt, t.ssH);
      nub.Write(SsSclLcnt, t.ssL);
      nub.Write(FsSclHcnt, t.fsH);
      nub.Write(FsSclLcnt, t.fsL);
      if t.hold != 0 {
        nub.Write(SdaHold, t.hold);
      }
    }

    /** The threshold and control writes of initialiseBus. */
    method ProgramThresholds(txTl: Word, con: Word)
      modifies nub`regs, nub`log
      ensures nub.regs == Thresholds(old(nub.regs), txTl, con)
      ensures nub.log == old(nub.log) + ThresholdWrites(txTl, con)
    {
      nub.Write(TxTl, txTl);
      nub.Write(RxTl, 0);
      nub.Write(Con, con);
    }

    /** getBusConfig: the FIFO depths from COMP_PARAM_1, then the timing
        values as BusTiming computes them from the platform name, the
        firmware overrides `sscn` and `fmcn` (None when the lookup fails),
        the SDA hold value held so far, COMP_VERSION and SDA_HOLD. */
    method GetBusConfig(sscn: Option<(U32, U32)>, fmcn: Option<(U32, U32, U32)>) returns (r: IOReturn)
      modifies this`config, this`txDepth, this`rxDepth
      ensures (txDepth, rxDepth) == FifoDepths(nub.Value(CompParam1))
      ensures (config, r) == BusTiming(name, sscn, fmcn, old(config.sdaHold),
                                       nub.Value(CompVersion), nub.Value(SdaHold) as int)
    {
      var param := nub.Value(CompParam1);
      var depths := FifoDepths(param);
      txDepth, rxDepth := depths.0, depths.1;
      var version := nub.Value(CompVersion);
      var hw := nub.Value(SdaHold);
      var timing := BusTiming(name, sscn, fmcn, config.sdaHold, version, hw as int);
      config := timing.0;
      r := timing.1;
    }

    /** waitBusNotBusyI2C: poll STATUS while it reports activity, giving up
        with Busy once the polls past the first exceed busyPollLimit. */
    method WaitBusNotBusy() returns (r: IOReturn)
      modifies nub`statusScript
      ensures r == if BusyPolls(old(nub.statusScript)) <= busyPollLimit then Success else Busy
      ensures nub.statusScript == old(nub.statusScript)[Min(Min(BusyPolls(old(nub.statusScript)), busyPollLimit) + 1,
                                                            |old(nub.statusScript)|)..]
    {
      ghost var script := nub.statusScript;
      ghost var k := BusyPolls(script);
      var timeout: int := busyPollLimit;
      var status := nub.ReadStatus();
      while status & STATUS_ACTIVITY != 0
        invariant 0 <= timeout <= busyPollLimit && busyPollLimit - timeout <= k
        invariant nub.statusScript == script[Min(busyPollLimit - timeout + 1, |script|)..]
        invariant status & STATUS_ACTIVITY == 0 ==> k == busyPollLimit - timeout
        invariant status & STATUS_ACTIVITY != 0 ==> busyPollLimit - timeout < k
        decreases timeout
      {
        if timeout <= 0 {
          return Busy;
        }
        timeout := timeout - 1;
        status := nub.ReadStatus();
      }
      r := Success;
    }

    /** The first step of requestTransferI2C: with the mask workaround the
        bus is initialised again, otherwise the controller is switched off. */
    method Quiesce()
      modifies nub`regs, nub`log, nub`enableScript
      ensures nub.regs == Quiesced(old(nub.regs), intrMaskWorkaround, clockGating,
                                   Settles(old(nub.enableScript), false), Words(config),
                                   TxThreshold(txDepth), busConfig)
      ensures nub.enableScript == old(nub.enableScript)[SettleReads(old(nub.enableScript), false)..]
    {
      if intrMaskWorkaround {
        var r := InitialiseBus();
      } else {
        var r := ToggleBusState(false);
      }
    }

    /** The addressing step of requestTransferI2C: CON gets 10-bit master
        addressing exactly when the message at the write index asks for a
        ten-bit address (and is written only when that changes it), then
        TAR gets the address. */
    method Address()
      requires writeIndex < |messages|
      modifies nub`regs, nub`log
      ensures nub.regs == Addressed(old(nub.regs), messages[writeIndex].flags, messages[writeIndex].address)
      ensures nub.log == old(nub.log) + AddressWrites(old(nub.Value(Con)), messages[writeIndex].flags,
                                                      messages[writeIndex].address)
    {
      var orig := nub.Value(Con);
      var m := messages[writeIndex];
      var t := TargetWords(orig, m.flags, m.address);
      if t.0 != orig {
        nub.Write(Con, t.0);
      }
      nub.Write(Tar, t.1);
    }

    /** The last step of requestTransferI2C: mask every interrupt, switch
        the controller on, read ENABLE_STATUS once more (the dummy read),
        then acknowledge what is pending and unmask the default set. */
    method Arm()
      modifies nub`regs, nub`log, nub`enableScript, nub`rawIntr
      ensures nub.regs == Armed(old(nub.regs), clockGating, Settles(old(nub.enableScript), true))
      ensures nub.rawIntr == AllAcknowledged(old(nub.rawIntr))
      ensures nub.log == old(nub.log) + ArmWrites(old(nub.enableScript), clockGating)
      ensures nub.enableScript == ArmedScript(old(nub.enableScript))
    {
      ToggleInterrupts(false);
      var r := ToggleBusState(true);
      var dummy := nub.ReadEnableStatus();
      ToggleInterrupts(true);
    }

    /** requestTransferI2C: arm the controller for the transfer of the
        message at the write index. Afterwards CON carries 10-bit master
        addressing exactly when that message asks for it, TAR holds its
        address, the controller is on, the pending interrupts are
        acknowledged and the default set is unmasked. */
    method RequestTransfer()
      requires writeIndex < |messages|
      modifies nub`regs, nub`log, nub`enableScript, nub`rawIntr
      ensures var con := if intrMaskWorkaround && Settles(old(nub.enableScript), false)
                         then busConfig else old(nub.Value(Con));
        var t := TargetWords(con, messages[writeIndex].flags, messages[writeIndex].address);
        nub.Value(Con) == t.0 && nub.Value(Tar) == t.1
      ensures nub.Value(IntrMask) == INTR_DEFAULT_MASK && nub.Value(Enable) == 1
      ensures nub.rawIntr == AllAcknowledged(old(nub.rawIntr))
      ensures nub.enableScript == RequestScript(old(nub.enableScript))
    {
      ghost var regs := nub.regs;
      ghost var settled := Settles(nub.enableScript, false);
      Quiesce();
      QuiescedValues(regs, intrMaskWorkaround, clockGating, settled, Words(config), TxThreshold(txDepth), busConfig);
      ghost var quiet := nub.regs;
      Address();
      AddressedValues(quiet, messages[writeIndex].flags, messages[writeIndex].address);
      ghost var addressed := nub.regs;
      ghost var on := Settles(nub.enableScript, true);
      Arm();
      ArmedValues(addressed, clockGating, on);
    }

    /** commandSleep: the driver waits until handleInterrupt wakes it.
        `irqs` is what the hardware does before the deadline, one element
        per interrupt; the wait times out (woken is false) when none of
        them wakes the driver. */
    method WaitForCompletion(irqs: seq<Irq>) returns (woken: bool)
      requires Valid()
      modifies this`commandError, this`writeInProgress, this`readInProgress,
               this`receiveOutstanding, this`abortSource, this`messages, this`readIndex,
               this`rxBuf, this`rxLen, this`writeIndex, this`txBuf, this`txLen,
               this`messageError, nub`rawIntr, nub`regs, nub`log, nub`rxFifo, nub`txLevel
      ensures Valid()
      ensures woken ==> receiveOutstanding == 0
      ensures !woken ==> commandError == old(commandError) && abortSource == old(abortSource)
    {
      woken := false;
      var i := 0;
      while i < |irqs| && !woken
        invariant 0 <= i <= |irqs| && Valid()
        invariant woken ==> receiveOutstanding == 0
        invariant !woken ==> commandError == old(commandError) && abortSource == old(abortSource)
      {
        nub.Deliver(irqs[i]);
        woken := HandleInterrupt();
        i := i + 1;
      }
    }

    /** The reset at the start of prepareTransferI2C: the new messages, no
        error, both cursors at the start, status idle, no abort source and
        nothing outstanding. */
    method Reset(msgs: seq<Message>)
      requires |msgs| >= 1
      modifies this`messages, this`commandError, this`writeIndex, this`readIndex, this`messageError,
               this`writeInProgress, this`readInProgress, this`abortSource, this`receiveOutstanding
      ensures messages == msgs && commandError == 0 && writeIndex == 0 && readIndex == 0
      ensures !messageError && !writeInProgress && !readInProgress
      ensures abortSource == 0 && receiveOutstanding == 0
      ensures Valid()
    {
      messages := msgs;
      commandError := 0;
      writeIndex, readIndex := 0, 0;
      messageError := false;
      writeInProgress, readInProgress := false, false;
      abortSource := 0;
      receiveOutstanding := 0;
    }

    /** prepareTransferI2C between the busy check and the classification:
        reset, arm the controller and wait. An abort always wakes the
        waiter, so a wait that times out has seen none. */
    method Submit(msgs: seq<Message>, irqs: seq<Irq>) returns (woken: bool)
      requires |msgs| >= 1
      modifies this`commandError, this`writeInProgress, this`readInProgress,
               this`receiveOutstanding, this`abortSource, this`messages, this`readIndex,
               this`rxBuf, this`rxLen, this`writeIndex, this`txBuf, this`txLen,
               this`messageError, nub`rawIntr, nub`regs, nub`log, nub`rxFifo, nub`txLevel,
               nub`enableScript
      ensures Valid()
      ensures woken ==> receiveOutstanding == 0
      ensures !woken ==> commandError == 0 && abortSource == 0
      ensures nub.enableScript == RequestScript(old(nub.enableScript))
    {
      Reset(msgs);
      RequestTransfer();
      woken := WaitForCompletion(irqs);
    }

    /** prepareTransferI2C: Busy when the driver is asleep or the bus stays
        busy; otherwise submit the messages and wait for the interrupt path.
        A wait that times out initialises the bus again and reports
        Timeout; otherwise the controller is switched off and the error
        flags are classified, with the decoded abort reasons on a transmit
        abort. Since the interrupt path only ever records the abort marker,
        the result is never NotReady. */
    method PrepareTransfer(msgs: seq<Message>, irqs: seq<Irq>) returns (r: IOReturn, reasons: set<AbortReason>)
      requires |msgs| >= 1
      modifies this`commandError, this`writeInProgress, this`readInProgress,
               this`receiveOutstanding, this`abortSource, this`messages, this`readIndex,
               this`rxBuf, this`rxLen, this`writeIndex, this`txBuf, this`txLen,
               this`messageError, nub`rawIntr, nub`regs, nub`log, nub`rxFifo, nub`txLevel,
               nub`enableScript, nub`statusScript
      ensures r == Busy <==> !awake || BusyPolls(old(nub.statusScript)) > busyPollLimit
      ensures r == Busy ==> unchanged(this)
      ensures r != NotReady
      ensures r != Busy && r != Timeout ==> r == Classify(messageError, commandError)
      ensures r == Timeout ==> commandError == 0 && reasons == {}
      ensures reasons == if r == Error && !messageError then Reasons(abortSource) else {}
      ensures r != Busy ==> Valid()
      ensures r != Busy ==> nub.Value(Enable) == 0
      ensures var s := RequestScript(old(nub.enableScript));
        r == Timeout ==> EndsWith(nub.log, ToggleWrites(s, false, clockGating)
          + if Settles(s, false) then SetupWrites(Words(config), TxThreshold(txDepth), busConfig) else [])
      ensures var s := RequestScript(old(nub.enableScript));
        r == Timeout && Settles(s, false) ==> Initialised(nub.regs, Words(config), TxThreshold(txDepth), busConfig)
      ensures r != Busy && r != Timeout ==>
        EndsWith(nub.log, ToggleWrites(RequestScript(old(nub.enableScript)), false, clockGating))
    {
      reasons := {};
      if !awake {
        return Busy, {};
      }
      var idle := WaitBusNotBusy();
      if idle != Success {
        return Busy, {};
      }
      var woken := Submit(msgs, irqs);
      r, reasons := Conclude(woken);
    }

    /** The end of prepareTransferI2C once the wait is over: a wait that
        timed out initialises the bus again and gives Timeout; otherwise
        the controller is switched off and the error flags are classified,
        with the decoded abort reasons on a transmit abort. Either way the
        controller is left off. */
    method Conclude(woken: bool) returns (r: IOReturn, reasons: set<AbortReason>)
      requires Valid()
      modifies nub`regs, nub`log, nub`enableScript
      ensures Valid()
      ensures r == if woken then Classify(messageError, commandError) else Timeout
      ensures reasons == if woken && !messageError && commandError == ERR_TX_ABRT then Reasons(abortSource) else {}
      ensures nub.Value(Enable) == 0
      ensures var s := old(nub.enableScript);
        !woken ==> EndsWith(nub.log, ToggleWrites(s, false, clockGating)
          + if Settles(s, false) then SetupWrites(Words(config), TxThreshold(txDepth), busConfig) else [])
      ensures !woken && Settles(old(nub.enableScript), false) ==>
        Initialised(nub.regs, Words(config), TxThreshold(txDepth), busConfig)
      ensures woken ==> EndsWith(nub.log, ToggleWrites(old(nub.enableScript), false, clockGating))
    {
      ghost var regs, log, script := nub.regs, nub.log, nub.enableScript;
      reasons := {};
      if !woken {
        var init := InitialiseBus();
        InitialisedValues(regs, clockGating, init == Success, Words(config), TxThreshold(txDepth), busConfig);
        AppendedEndsWith(log, ToggleWrites(script, false, clockGating),
                         if init == Success then SetupWrites(Words(config), TxThreshold(txDepth), busConfig) else []);
        assert nub.Value(IntrMask) == Get(regs, IntrMask);
        return Timeout, {};
      }
      var off := ToggleBusState(false);
      ToggledValues(regs, false, clockGating, off == Success);
      assert nub.Value(IntrMask) == Get(regs, IntrMask);
      AppendedEndsWith(log, ToggleWrites(script, false, clockGating), []);
      r := Classify(messageError, commandError);
      if !messageError && commandError == ERR_TX_ABRT {
        reasons := Reasons(abortSource);
      }
    }

    /** transferI2CGated: submit the transfer until prepareTransferI2C
        reports something other than NotReady, at most MAX_ATTEMPTS times.
        As prepareTransferI2C never reports NotReady, one attempt is made. */
    method TransferGated(msgs: seq<Message>, irqs: seq<Irq>) returns (r: IOReturn, attempts: nat)
      requires |msgs| >= 1
      modifies this`commandError, this`writeInProgress, this`readInProgress,
               this`receiveOutstanding, this`abortSource, this`messages, this`readIndex,
               this`rxBuf, this`rxLen, this`writeIndex, this`txBuf, this`txLen,
               this`messageError, nub`rawIntr, nub`regs, nub`log, nub`rxFifo, nub`txLevel,
               nub`enableScript, nub`statusScript
      ensures attempts == 1 && attempts <= MAX_ATTEMPTS
      ensures r != NotReady
      ensures r == Busy <==> !awake || BusyPolls(old(nub.statusScript)) > busyPollLimit
      ensures r != Busy && r != Timeout ==> r == Classify(messageError, commandError)
      ensures r == Timeout ==> commandError == 0
      ensures r != Busy ==> Valid()
    {
      r := Success;
      attempts := 0;
      var done := false;
      while attempts < MAX_ATTEMPTS && !done
        invariant attempts <= 1 && (attempts == 1 <==> done)
        invariant !done ==> nub.statusScript == old(nub.statusScript)
        invariant done ==> r != NotReady
        invariant done ==> (r == Busy <==> !awake || BusyPolls(old(nub.statusScript)) > busyPollLimit)
        invariant done && r != Busy && r != Timeout ==> r == Classify(messageError, commandError)
        invariant done && r == Timeout ==> commandError == 0
        invariant done && r != Busy ==> Valid()
      {
        var reasons;
        r, reasons := PrepareTransfer(msgs, irqs);
        attempts := attempts + 1;
        done := r != NotReady;
      }
    }
  }
}

=== FILE: engine.dfy ===
/** The byte-level transfer engine as functions of the transfer state:
    one transmit-FIFO fill (transferMessageToBus) and one receive-FIFO
    drain (readFromBus), and what they guarantee about the commands they
    queue and the bytes they deliver. The controller's methods are proved
    to compute exactly these functions. */
module Engine {
  import opened Types
  import opened Registers

  /** One I2C message: target address, flags (I2C_M_RD, I2C_M_TEN) and the
      buffer, whose size is the message length. */
  datatype Message = Message(address: Word, flags: Word, buf: seq<Byte>)

  predicate IsRead(m: Message)
  {
    m.flags & I2C_M_RD != 0
  }

  /** A command queued in DATA_CMD: its stop, restart and read bits and the
      byte it sends, tagged with the message it belongs to and how many of
      that message's bytes were still to be issued, this one included. */
  datatype Cmd = Cmd(msg: nat, remaining: nat, stop: bool, restart: bool, read: bool, data: Byte)

  /** The DATA_CMD word that queues `c`. */
  function CmdWord(c: Cmd): (w: Word)
    ensures (w & CMD_STOP != 0) == c.stop && (w & CMD_RESTART != 0) == c.restart
    ensures (w & CMD_READ != 0) == c.read
    ensures !c.read ==> w & 0xFF == c.data as Word
  {
    CommandWord(c.stop, c.restart, c.read, c.data)
  }

  /** The register writes that queue `cmds`, in order. */
  function DataCmdWrites(cmds: seq<Cmd>): (ws: seq<(Reg, Word)>)
    ensures |ws| == |cmds|
    ensures forall i :: 0 <= i < |cmds| ==> ws[i] == (DataCmd, CmdWord(cmds[i]))
  {
    if cmds == [] then [] else [(DataCmd, CmdWord(cmds[0]))] + DataCmdWrites(cmds[1..])
  }

  /** Queueing one more command appends its write to a log of writes. */
  lemma DataCmdWritesSnoc(log: seq<(Reg, Word)>, cmds: seq<Cmd>, c: Cmd)
    ensures log + DataCmdWrites(cmds + [c]) == (log + DataCmdWrites(cmds)) + [(DataCmd, CmdWord(c))]
  {
    var ws := DataCmdWrites(cmds + [c]);
    assert forall i :: 0 <= i < |cmds| ==> ws[i] == DataCmdWrites(cmds)[i];
    assert ws == DataCmdWrites(cmds) + [(DataCmd, CmdWord(c))];
  }

  /** The number of read tokens among `cmds`. */
  function ReadTokens(cmds: seq<Cmd>): nat
  {
    if cmds == [] then 0
    else (if cmds[|cmds| - 1].read then 1 else 0) + ReadTokens(cmds[..|cmds| - 1])
  }

  /** Commands for ever later messages, and within one message for ever
      fewer remaining bytes. */
  ghost predicate Ordered(cmds: seq<Cmd>)
  {
    forall i, j :: 0 <= i < j < |cmds| ==>
      cmds[i].msg < cmds[j].msg || (cmds[i].msg == cmds[j].msg && cmds[i].remaining > cmds[j].remaining)
  }

  // ---------------------------------------------------------------------
  // Transmit fill

  /** What one fill reads and never changes: the messages, the target
      address armed for the transfer (that of the message at the write
      index on entry), whether CON has RESTART_EN, the FIFO depths and the
      receive-FIFO level (RXFLR). */
  datatype FillEnv = FillEnv(msgs: seq<Message>, addr: Word, restartEn: bool,
                             txDepth: int, rxDepth: int, rxLevel: int)

  /** The state the inner loop of a fill works on: the transmit cursor
      (`buf`, `len`), the remaining TX and RX slots (`tl`, `rl`), whether a
      restart is pending, the outstanding reads, the TX-FIFO level and the
      commands queued so far. */
  datatype Burst = Burst(buf: nat, len: nat, tl: int, rl: int, restart: bool,
                         outstanding: int, txLevel: int, cmds: seq<Cmd>)

  /** Everything a command queued by a fill satisfies: it belongs to a
      message for the armed address, it carries the stop bit exactly on the
      last byte of the last message, the read token exactly for read
      messages, the restart bit only on the first byte of a message after
      the first one when CON has RESTART_EN, and a write carries the
      message's byte at its position. */
  ghost predicate CmdOk(e: FillEnv, c: Cmd)
  {
    && c.msg < |e.msgs|
    && var m := e.msgs[c.msg];
    && m.address == e.addr
    && 1 <= c.remaining <= |m.buf|
    && (c.stop <==> c.msg == |e.msgs| - 1 && c.remaining == 1)
    && (c.read <==> IsRead(m))
    && (c.restart ==> e.restartEn && c.msg > 0 && c.remaining == |m.buf|)
    && (!c.read ==> c.data == m.buf[|m.buf| - c.remaining])
  }


  /** The inner loop of transferMessageToBus for message `wi`: issue one
      command per remaining byte while TX and RX slots last; a read stops
      early when the outstanding reads would reach the RX slots. */
  function Emit(e: FillEnv, wi: nat, b: Burst): (r: Burst)
    requires wi < |e.msgs|
    requires !IsRead(e.msgs[wi]) ==> b.buf + b.len == |e.msgs[wi].buf|
    ensures r.len <= b.len
    ensures r.restart ==> b.restart && r.len == b.len
    ensures !IsRead(e.msgs[wi]) ==> r.buf + r.len == b.buf + b.len
    ensures b.cmds <= r.cmds && |r.cmds| == |b.cmds| + (b.len - r.len)
    decreases b.len
  {
    var m := e.msgs[wi];
    if b.len > 0 && b.tl > 0 && b.rl > 0 then
      var stop := wi == |e.msgs| - 1 && b.len == 1;
      if IsRead(m) then
        if b.rl - b.outstanding <= 0 then
          b.(restart := false)
        else
          var c := Cmd(wi, b.len, stop, b.restart, true, 0);
          Emit(e, wi, Burst(b.buf, b.len - 1, b.tl - 1, b.rl - 1, false, b.outstanding + 1,
                            b.txLevel + 1, b.cmds + [c]))
      else
        var c := Cmd(wi, b.len, stop, b.restart, false, m.buf[b.buf]);
        Emit(e, wi, Burst(b.buf + 1, b.len - 1, b.tl - 1, b.rl, false, b.outstanding,
                          b.txLevel + 1, b.cmds + [c]))
    else
      b
  }

  /** Whether Emit queues a command for the next byte of message `wi`:
      bytes and both kinds of slots remain, and a read is not blocked by
      the outstanding reads. */
  predicate EmitGoesOn(e: FillEnv, wi: nat, b: Burst)
    requires wi < |e.msgs|
  {
    b.len > 0 && b.tl > 0 && b.rl > 0 && !(IsRead(e.msgs[wi]) && b.rl - b.outstanding <= 0)
  }

  /** The burst after Emit queues the command for the next byte: the read
      token or the byte at the cursor, with the stop bit on the last byte
      of the last message and the pending restart, if any. */
  function EmitNext(e: FillEnv, wi: nat, b: Burst): (r: Burst)
    requires wi < |e.msgs|
    requires !IsRead(e.msgs[wi]) ==> b.buf + b.len == |e.msgs[wi].buf|
    requires b.len > 0
    ensures r.len == b.len - 1 && !r.restart
  {
    var m := e.msgs[wi];
    var stop := wi == |e.msgs| - 1 && b.len == 1;
    if IsRead(m) then
      Burst(b.buf, b.len - 1, b.tl - 1, b.rl - 1, false, b.outstanding + 1, b.txLevel + 1,
            b.cmds + [Cmd(wi, b.len, stop, b.restart, true, 0)])
    else
      Burst(b.buf + 1, b.len - 1, b.tl - 1, b.rl, false, b.outstanding, b.txLevel + 1,
            b.cmds + [Cmd(wi, b.len, stop, b.restart, false, m.buf[b.buf])])
  }

  /** One step of Emit: it goes on from EmitNext, or ends where it is (a
      read blocked by the outstanding reads drops the pending restart). */
  lemma EmitUnfold(e: FillEnv, wi: nat, b: Burst)
    requires wi < |e.msgs|
    requires !IsRead(e.msgs[wi]) ==> b.buf + b.len == |e.msgs[wi].buf|
    ensures EmitGoesOn(e, wi, b) ==> Emit(e, wi, b) == Emit(e, wi, EmitNext(e, wi, b))
    ensures !EmitGoesOn(e, wi, b) && b.len > 0 && b.tl > 0 && b.rl > 0 ==> Emit(e, wi, b) == b.(restart := false)
    ensures !(b.len > 0 && b.tl > 0 && b.rl > 0) ==> Emit(e, wi, b) == b
  {
  }

  /** The commands Emit queues belong to message `wi` and count down its
      remaining bytes from the burst's; only the first carries the restart,
      and it does exactly when one is pending. */
  lemma {:induction false} EmitRestarts(e: FillEnv, wi: nat, b: Burst, r: Burst)
    requires wi < |e.msgs|
    requires !IsRead(e.msgs[wi]) ==> b.buf + b.len == |e.msgs[wi].buf|
    requires r == Emit(e, wi, b)
    ensures forall i :: |b.cmds| <= i < |r.cmds| ==>
              && r.cmds[i].msg == wi && r.cmds[i].remaining == b.len - (i - |b.cmds|)
              && (r.cmds[i].restart <==> i == |b.cmds| && b.restart)
    decreases b.len
  {
    EmitUnfold(e, wi, b);
    if EmitGoesOn(e, wi, b) {
      var next := EmitNext(e, wi, b);
      EmitRestarts(e, wi, next, r);
      assert r.cmds[|b.cmds|] == next.cmds[|b.cmds|];
    }
  }

  /** Appending a command that comes after every queued one keeps the queue ordered. */
  lemma OrderedAppend(cmds: seq<Cmd>, c: Cmd)
    requires Ordered(cmds)
    requires forall i :: 0 <= i < |cmds| ==>
               cmds[i].msg < c.msg || (cmds[i].msg == c.msg && cmds[i].remaining > c.remaining)
    ensures Ordered(cmds + [c])
  {
  }

  /** The commands Emit queues: each is a well-formed command for message
      `wi`, and none belongs to a later message. */
  lemma {:induction false} EmitCommands(e: FillEnv, wi: nat, b: Burst, r: Burst)
    requires wi < |e.msgs| && e.msgs[wi].address == e.addr
    requires b.len <= |e.msgs[wi].buf|
    requires !IsRead(e.msgs[wi]) ==> b.buf + b.len == |e.msgs[wi].buf|
    requires b.restart ==> e.restartEn && wi > 0 && b.len == |e.msgs[wi].buf|
    requires forall i :: 0 <= i < |b.cmds| ==> b.cmds[i].msg <= wi
    requires r == Emit(e, wi, b)
    ensures
      && (forall i :: |b.cmds| <= i < |r.cmds| ==> r.cmds[i].msg == wi && CmdOk(e, r.cmds[i]))
      && (forall i :: 0 <= i < |r.cmds| ==> r.cmds[i].msg <= wi)
    decreases b.len
  {
    EmitUnfold(e, wi, b);
    if EmitGoesOn(e, wi, b) {
      var next := EmitNext(e, wi, b);
      var c := next.cmds[|b.cmds|];
      assert next.cmds == b.cmds + [c];
      assert CmdOk(e, c);
      EmitCommands(e, wi, next, r);
      assert r.cmds[|b.cmds|] == c;
    }
  }

  /** Emit queues its commands after every earlier one, in order of
      decreasing remaining bytes. */
  lemma {:induction false} EmitOrdered(e: FillEnv, wi: nat, b: Burst, r: Burst)
    requires wi < |e.msgs|
    requires !IsRead(e.msgs[wi]) ==> b.buf + b.len == |e.msgs[wi].buf|
    requires forall i :: 0 <= i < |b.cmds| ==>
               b.cmds[i].msg < wi || (b.cmds[i].msg == wi && b.cmds[i].remaining > b.len)
    requires Ordered(b.cmds)
    requires r == Emit(e, wi, b)
    ensures Ordered(r.cmds)
    decreases b.len
  {
    EmitUnfold(e, wi, b);
    if EmitGoesOn(e, wi, b) {
      var next := EmitNext(e, wi, b);
      var c := next.cmds[|b.cmds|];
      assert next.cmds == b.cmds + [c];
      OrderedAppend(b.cmds, c);
      EmitOrdered(e, wi, next, r);
    }
  }

  /** What Emit does to the transmit FIFO: one TX slot per command, never
      more than were free, and it stops with bytes left only when a FIFO
      is full (for a read, when the outstanding reads fill the RX slots). */
  lemma {:induction false} EmitSlots(e: FillEnv, wi: nat, b: Burst, r: Burst)
    requires wi < |e.msgs|
    requires !IsRead(e.msgs[wi]) ==> b.buf + b.len == |e.msgs[wi].buf|
    requires r == Emit(e, wi, b)
    ensures
      && r.txLevel == b.txLevel + (b.len - r.len) && r.tl == b.tl - (b.len - r.len)
      && (b.tl >= 0 ==> r.tl >= 0)
      && (r.len > 0 ==> r.tl <= 0 || r.rl <= 0 || (IsRead(e.msgs[wi]) && r.rl - r.outstanding <= 0))
    decreases b.len
  {
    EmitUnfold(e, wi, b);
    if EmitGoesOn(e, wi, b) {
      EmitSlots(e, wi, EmitNext(e, wi, b), r);
    }
  }


  /** What Emit does to the outstanding reads: one more per read token
      queued, and when they grow, never past the RX slots it started with. */
  lemma {:induction false} EmitReads(e: FillEnv, wi: nat, b: Burst, r: Burst)
    requires wi < |e.msgs|
    requires !IsRead(e.msgs[wi]) ==> b.buf + b.len == |e.msgs[wi].buf|
    requires r == Emit(e, wi, b)
    ensures
      && r.outstanding == b.outstanding + ReadTokens(r.cmds[|b.cmds|..])
      && (r.outstanding > b.outstanding ==> r.outstanding <= b.rl)
    decreases b.len
  {
    EmitUnfold(e, wi, b);
    if EmitGoesOn(e, wi, b) {
      var next := EmitNext(e, wi, b);
      EmitReads(e, wi, next, r);
      var c := next.cmds[|b.cmds|];
      assert next.cmds == b.cmds + [c];
      assert r.cmds[..|b.cmds| + 1] == next.cmds;
      EmitTail(b.cmds, c, r.cmds);
    } else {
      assert r.cmds[|b.cmds|..] == [];
    }
  }

  /** Bookkeeping for one step of Emit: the new tail is the step's command
      followed by the rest, and its read tokens add up. */
  lemma EmitTail(cmds: seq<Cmd>, c: Cmd, all: seq<Cmd>)
    requires |all| >= |cmds| + 1 && all[..|cmds| + 1] == cmds + [c]
    ensures ReadTokens(all[|cmds|..])
            == (if c.read then 1 else 0) + ReadTokens(all[|cmds| + 1..])
  {
    assert all[|cmds|..] == [c] + all[|cmds| + 1..];
    ReadTokensAppend([c], all[|cmds| + 1..]);
  }

  lemma {:induction false} ReadTokensAppend(x: seq<Cmd>, y: seq<Cmd>)
    ensures ReadTokens(x + y) == ReadTokens(x) + ReadTokens(y)
    decreases |y|
  {
    if y == [] {
      assert x + y == x;
    } else {
      var xy := x + y;
      assert xy[..|xy| - 1] == x + y[..|y| - 1];
      assert xy[|xy| - 1] == y[|y| - 1];
      ReadTokensAppend(x, y[..|y| - 1]);
    }
  }

  /** The transmit cursor of a fill between messages: the write index,
      whether a write is in progress (the driver's WRITE_IN_PROGRESS status
      bit), the saved transmit buffer position and length, the
      outstanding reads, the message error flag, the TX-FIFO level, the
      pending restart and the commands queued so far. */
  datatype Fill = Fill(wi: nat, writing: bool, txBuf: nat, txLen: nat, outstanding: int,
                       msgError: bool, txLevel: int, restart: bool, cmds: seq<Cmd>)

  /** The fill state that transferMessageToBus keeps between calls: a write
      in progress names a message for the armed address and a non-empty
      rest of it, and no restart is
      pending when a message is entered. */
  ghost predicate FillOk(e: FillEnv, f: Fill)
  {
    && f.wi <= |e.msgs|
    && !f.restart
    && (f.writing ==>
          && f.wi < |e.msgs|
          && e.msgs[f.wi].address == e.addr
          && 0 < f.txLen <= |e.msgs[f.wi].buf|
          && (!IsRead(e.msgs[f.wi]) ==> f.txBuf + f.txLen == |e.msgs[f.wi].buf|))
  }

  /** The outer loop of transferMessageToBus from message `f.wi` on: stop
      with a message error at a message for another address or of length
      zero; otherwise issue the message's commands, and either stop with
      the write in progress (a FIFO is full) or go on with the next. */
  function FillFrom(e: FillEnv, f: Fill): (r: Fill)
    requires FillOk(e, f)
    ensures f.wi <= r.wi <= |e.msgs|
    ensures f.cmds <= r.cmds
    decreases |e.msgs| - f.wi
  {
    if f.wi == |e.msgs| then f
    else
      var m := e.msgs[f.wi];
      if m.address != e.addr || |m.buf| == 0 then
        f.(msgError := true)
      else
        var b := Emit(e, f.wi, FillBurst(e, f));
        if b.len > 0 then
          Fill(f.wi, true, b.buf, b.len, b.outstanding,
               f.msgError, b.txLevel, b.restart, b.cmds)
        else
          FillFrom(e, Fill(f.wi + 1, false, b.buf, b.len,
                           b.outstanding, f.msgError, b.txLevel, b.restart, b.cmds))
  }

  /** One message of a fill: a message error, or the message's commands
      with the write left in progress, or the message done and the write
      index moved past it. */
  function FillStep(e: FillEnv, f: Fill): (r: Fill)
    requires FillOk(e, f) && f.wi < |e.msgs|
    ensures r.wi == f.wi || (r.wi == f.wi + 1 && FillOk(e, r))
  {
    var m := e.msgs[f.wi];
    if m.address != e.addr || |m.buf| == 0 then
      f.(msgError := true)
    else
      var b := Emit(e, f.wi, FillBurst(e, f));
      if b.len > 0 then
        Fill(f.wi, true, b.buf, b.len, b.outstanding, f.msgError, b.txLevel, b.restart, b.cmds)
      else
        Fill(f.wi + 1, false, b.buf, b.len, b.outstanding, f.msgError, b.txLevel, b.restart, b.cmds)
  }

  /** A fill is its first message's step followed, unless the fill stops
      there, by the fill from the next message. */
  lemma FillFromStep(e: FillEnv, f: Fill, s: Fill)
    requires FillOk(e, f) && f.wi < |e.msgs|
    requires s == FillStep(e, f)
    ensures s.wi == f.wi ==> FillFrom(e, f) == s
    ensures s.wi != f.wi ==> FillOk(e, s) && FillFrom(e, f) == FillFrom(e, s)
  {
  }

  /** The inner-loop state for message `f.wi`: a message not yet started
      begins at its first byte, with a restart when CON has RESTART_EN and
      it is not the first message; one in progress resumes where it stopped.
      The TX and RX slots are what the FIFOs have free. */
  function FillBurst(e: FillEnv, f: Fill): (b: Burst)
    requires FillOk(e, f) && f.wi < |e.msgs|
    ensures b.len <= |e.msgs[f.wi].buf|
    ensures !IsRead(e.msgs[f.wi]) ==> b.buf + b.len == |e.msgs[f.wi].buf|
    ensures !f.writing ==> b.buf == 0 && b.len == |e.msgs[f.wi].buf|
    ensures f.writing ==> b.buf == f.txBuf && b.len == f.txLen
    ensures b.restart <==> !f.writing && e.restartEn && f.wi > 0
    ensures b.tl == e.txDepth - f.txLevel && b.rl == e.rxDepth - e.rxLevel
    ensures (b.outstanding, b.txLevel, b.cmds) == (f.outstanding, f.txLevel, f.cmds)
  {
    var m := e.msgs[f.wi];
    var starting := !f.writing;
    Burst(if starting then 0 else f.txBuf, if starting then |m.buf| else f.txLen,
          e.txDepth - f.txLevel, e.rxDepth - e.rxLevel,
          f.restart || (starting && e.restartEn && f.wi > 0),
          f.outstanding, f.txLevel, f.cmds)
  }

  /** Where a fill stops: with every message queued, with the write in
      progress at a message whose cursor is inside it, or with a message
      error raised by a message for another address or of length zero. The
      cursor of a write in progress lies inside its message. */
  lemma {:induction false} FillStops(e: FillEnv, f: Fill, r: Fill)
    requires FillOk(e, f)
    requires r == FillFrom(e, f)
    ensures
      && (r.writing ==>
            && r.wi < |e.msgs| && 0 < r.txLen <= |e.msgs[r.wi].buf|
            && (!IsRead(e.msgs[r.wi]) ==> r.txBuf + r.txLen == |e.msgs[r.wi].buf|))
      && (r.wi < |e.msgs| ==> r.msgError || r.writing)
      && (f.msgError ==> r.msgError)
      && (!f.msgError && r.msgError ==>
            r.wi < |e.msgs| && (e.msgs[r.wi].address != e.addr || |e.msgs[r.wi].buf| == 0))
    decreases |e.msgs| - f.wi
  {
    if f.wi < |e.msgs| {
      var m := e.msgs[f.wi];
      if m.address == e.addr && |m.buf| > 0 {
        var b0 := FillBurst(e, f);
        var b := Emit(e, f.wi, b0);
        if b.len == 0 {
          var g := Fill(f.wi + 1, false, b.buf, b.len, b.outstanding, f.msgError, b.txLevel, b.restart, b.cmds);
          assert FillFrom(e, f) == FillFrom(e, g);
          FillStops(e, g, r);
        } else {
          assert FillFrom(e, f).txLen == b.len <= b0.len;
        }
      }
    } else {
      assert !f.writing;
    }
  }

  /** The commands a fill queues: each is well formed (CmdOk) for a message
      between the start and the end index. */
  lemma {:induction false} FillCommands(e: FillEnv, f: Fill, r: Fill)
    requires FillOk(e, f)
    requires forall i :: 0 <= i < |f.cmds| ==> f.cmds[i].msg < f.wi
    requires r == FillFrom(e, f)
    ensures
      forall i :: |f.cmds| <= i < |r.cmds| ==> f.wi <= r.cmds[i].msg <= r.wi && CmdOk(e, r.cmds[i])
    decreases |e.msgs| - f.wi
  {
    if f.wi < |e.msgs| {
      var m := e.msgs[f.wi];
      if m.address == e.addr && |m.buf| > 0 {
        var b0 := FillBurst(e, f);
        EmitCommands(e, f.wi, b0, Emit(e, f.wi, b0));
        var b := Emit(e, f.wi, b0);
        if b.len == 0 {
          var g := Fill(f.wi + 1, false, b.buf, b.len, b.outstanding, f.msgError, b.txLevel, b.restart, b.cmds);
          assert FillFrom(e, f) == FillFrom(e, g);
          assert forall i :: 0 <= i < |b.cmds| ==> b.cmds[i].msg <= f.wi;
          assert forall i :: 0 <= i < |g.cmds| ==> g.cmds[i].msg < g.wi;
          FillCommands(e, g, r);
          forall i | |f.cmds| <= i < |r.cmds|
            ensures f.wi <= r.cmds[i].msg <= r.wi && CmdOk(e, r.cmds[i])
          {
            if i < |b.cmds| {
              assert r.cmds[i] == b.cmds[i];
            }
          }
        }
      }
    }
  }

  /** A fill passes only messages for the armed address with a non-empty
      buffer, and a write it leaves in progress is at such a message. */
  lemma {:induction false} PassedAreValid(e: FillEnv, f: Fill, r: Fill)
    requires FillOk(e, f)
    requires r == FillFrom(e, f)
    ensures forall k :: f.wi <= k < r.wi ==> e.msgs[k].address == e.addr && |e.msgs[k].buf| > 0
    ensures r.writing ==> r.wi < |e.msgs| && e.msgs[r.wi].address == e.addr && |e.msgs[r.wi].buf| > 0
    decreases |e.msgs| - f.wi
  {
    if f.wi < |e.msgs| {
      var m := e.msgs[f.wi];
      if m.address == e.addr && |m.buf| > 0 {
        var b := Emit(e, f.wi, FillBurst(e, f));
        if b.len == 0 {
          var g := Fill(f.wi + 1, false, b.buf, b.len, b.outstanding, f.msgError, b.txLevel, b.restart, b.cmds);
          assert FillFrom(e, f) == FillFrom(e, g);
          PassedAreValid(e, g, r);
        }
      }
    }
  }

  /** A message for another address or of length zero raises the message
      error once the fill reaches it: if it is the first such message from
      the write index on, the fill stops either at it with a message error
      or earlier with a write in progress and no error. */
  lemma {:induction false} OffenderRaises(e: FillEnv, f: Fill, k: nat)
    requires FillOk(e, f) && !f.msgError
    requires f.wi <= k < |e.msgs| && (e.msgs[k].address != e.addr || |e.msgs[k].buf| == 0)
    requires forall j :: f.wi <= j < k ==> e.msgs[j].address == e.addr && |e.msgs[j].buf| > 0
    ensures var r := FillFrom(e, f);
      && r.wi <= k && (r.msgError <==> r.wi == k) && (r.wi < k ==> r.writing)
    decreases k - f.wi
  {
    if f.wi < k {
      var b := Emit(e, f.wi, FillBurst(e, f));
      if b.len == 0 {
        var g := Fill(f.wi + 1, false, b.buf, b.len, b.outstanding, f.msgError, b.txLevel, b.restart, b.cmds);
        assert FillFrom(e, f) == FillFrom(e, g);
        OffenderRaises(e, g, k);
      }
    }
  }

  /** The restart rule of a fill: the command for the first byte of a
      message the fill enters carries the restart bit exactly when CON has
      RESTART_EN and the message is not the first. */
  lemma {:induction false} FillRestarts(e: FillEnv, f: Fill, r: Fill)
    requires FillOk(e, f)
    requires r == FillFrom(e, f)
    ensures forall i :: |f.cmds| <= i < |r.cmds| && r.cmds[i].msg < |e.msgs|
                        && (r.cmds[i].msg > f.wi || !f.writing)
                        && r.cmds[i].remaining == |e.msgs[r.cmds[i].msg].buf| ==>
              (r.cmds[i].restart <==> e.restartEn && r.cmds[i].msg > 0)
    decreases |e.msgs| - f.wi
  {
    if f.wi < |e.msgs| {
      var m := e.msgs[f.wi];
      if m.address == e.addr && |m.buf| > 0 {
        var b0 := FillBurst(e, f);
        var b := Emit(e, f.wi, b0);
        EmitRestarts(e, f.wi, b0, b);
        if b.len == 0 {
          var g := Fill(f.wi + 1, false, b.buf, b.len, b.outstanding, f.msgError, b.txLevel, b.restart, b.cmds);
          assert FillFrom(e, f) == FillFrom(e, g);
          FillRestarts(e, g, r);
          forall i | |f.cmds| <= i < |b.cmds|
            ensures r.cmds[i] == b.cmds[i]
          {
          }
        }
      }
    }
  }

  /** The commands of a fill are queued in order: message by message, and
      within a message byte by byte. */
  lemma {:induction false} FillOrdered(e: FillEnv, f: Fill, r: Fill)
    requires FillOk(e, f) && Ordered(f.cmds)
    requires forall i :: 0 <= i < |f.cmds| ==> f.cmds[i].msg < f.wi
    requires r == FillFrom(e, f)
    ensures Ordered(r.cmds)
    decreases |e.msgs| - f.wi
  {
    if f.wi < |e.msgs| {
      var m := e.msgs[f.wi];
      if m.address == e.addr && |m.buf| > 0 {
        var b0 := FillBurst(e, f);
        EmitOrdered(e, f.wi, b0, Emit(e, f.wi, b0));
        EmitCommands(e, f.wi, b0, Emit(e, f.wi, b0));
        var b := Emit(e, f.wi, b0);
        if b.len == 0 {
          var g := Fill(f.wi + 1, false, b.buf, b.len, b.outstanding, f.msgError, b.txLevel, b.restart, b.cmds);
          assert FillFrom(e, f) == FillFrom(e, g);
          FillOrdered(e, g, r);
        }
      }
    }
  }

  /** What a fill does to the FIFO bookkeeping: the TX level grows by one
      per command and never past the TX depth, and the outstanding reads
      grow by one per read token and, when they grow, never past the RX
      slots free when the fill began. */
  lemma {:induction false} FillCounts(e: FillEnv, f: Fill, r: Fill)
    requires FillOk(e, f)
    requires r == FillFrom(e, f)
    ensures
      && r.txLevel == f.txLevel + (|r.cmds| - |f.cmds|)
      && (f.txLevel <= e.txDepth ==> r.txLevel <= e.txDepth)
      && r.outstanding == f.outstanding + ReadTokens(r.cmds[|f.cmds|..])
      && (r.outstanding > f.outstanding ==> r.outstanding <= e.rxDepth - e.rxLevel)
    decreases |e.msgs| - f.wi
  {
    if f.wi < |e.msgs| {
      var m := e.msgs[f.wi];
      if m.address == e.addr && |m.buf| > 0 {
        var b0 := FillBurst(e, f);
        EmitSlots(e, f.wi, b0, Emit(e, f.wi, b0));
        EmitReads(e, f.wi, b0, Emit(e, f.wi, b0));
        var b := Emit(e, f.wi, b0);
        if b.len == 0 {
          var g := Fill(f.wi + 1, false, b.buf, b.len,
                        b.outstanding, f.msgError, b.txLevel, b.restart, b.cmds);
          FillCounts(e, g, r);
          ReadTokensSplit(f.cmds, b.cmds, r.cmds);
        }
      } else {
        assert f.cmds[|f.cmds|..] == [];
      }
    } else {
      assert f.cmds[|f.cmds|..] == [];
    }
  }

  /** Read tokens of a three-stage prefix chain add up. */
  lemma ReadTokensSplit(a: seq<Cmd>, b: seq<Cmd>, c: seq<Cmd>)
    requires a <= b <= c
    ensures ReadTokens(c[|a|..]) == ReadTokens(b[|a|..]) + ReadTokens(c[|b|..])
  {
    assert c[|a|..] == b[|a|..] + c[|b|..];
    ReadTokensAppend(b[|a|..], c[|b|..]);
  }

  /** A fill never queues a command for the message that caused a message
      error, nor for any message after it. */
  lemma NoCommandForOffender(e: FillEnv, f: Fill)
    requires FillOk(e, f) && !f.msgError
    requires forall i :: 0 <= i < |f.cmds| ==> f.cmds[i].msg < f.wi
    ensures var r := FillFrom(e, f);
      r.msgError ==> forall i :: |f.cmds| <= i < |r.cmds| ==> r.cmds[i].msg < r.wi
  {
    FillStops(e, f, FillFrom(e, f));
    FillCommands(e, f, FillFrom(e, f));
  }

  /** Within one fill every message gets at most one restart bit. */
  lemma AtMostOneRestart(e: FillEnv, f: Fill, i: nat, j: nat)
    requires FillOk(e, f) && Ordered(f.cmds)
    requires forall k :: 0 <= k < |f.cmds| ==> f.cmds[k].msg < f.wi
    requires var r := FillFrom(e, f);
      |f.cmds| <= i < |r.cmds| && |f.cmds| <= j < |r.cmds| && r.cmds[i].msg == r.cmds[j].msg
      && r.cmds[i].restart && r.cmds[j].restart
    ensures i == j
  {
    FillCommands(e, f, FillFrom(e, f));
    FillOrdered(e, f, FillFrom(e, f));
  }

  // ---------------------------------------------------------------------
  // Receive drain

  /** The receive cursor: the read index, whether a read is in progress
      (the driver's READ_IN_PROGRESS status bit), the saved
      receive buffer position and length, the outstanding reads, the bytes
      in the receive FIFO and the messages (whose read buffers fill up). */
  datatype Drain = Drain(ri: nat, reading: bool, rxBuf: nat, rxLen: nat, outstanding: int,
                         rxFifo: seq<Byte>, msgs: seq<Message>)

  /** A read in progress names a read message and a non-empty rest of its buffer. */
  ghost predicate DrainOk(d: Drain)
  {
    && d.ri <= |d.msgs|
    && (d.reading ==>
          && d.ri < |d.msgs|
          && IsRead(d.msgs[d.ri])
          && d.rxLen > 0
          && d.rxBuf + d.rxLen == |d.msgs[d.ri].buf|)
  }

  /** `ms'` differs from `ms` only in the contents of read buffers at or after `from`. */
  ghost predicate SameShape(ms: seq<Message>, ms': seq<Message>, from: nat)
  {
    && |ms'| == |ms|
    && forall k :: 0 <= k < |ms| ==>
         && ms'[k].address == ms[k].address && ms'[k].flags == ms[k].flags
         && |ms'[k].buf| == |ms[k].buf|
         && (k < from || !IsRead(ms[k]) ==> ms'[k] == ms[k])
  }

  /** The messages with `data` stored into message `i`'s buffer from position `at`. */
  function Store(ms: seq<Message>, i: nat, at: nat, data: seq<Byte>): (ms': seq<Message>)
    requires i < |ms| && at + |data| <= |ms[i].buf|
    ensures |ms'| == |ms|
    ensures forall k :: 0 <= k < |ms| && k != i ==> ms'[k] == ms[k]
    ensures ms'[i].address == ms[i].address && ms'[i].flags == ms[i].flags
    ensures |ms'[i].buf| == |ms[i].buf|
    ensures ms'[i].buf[..at] == ms[i].buf[..at]
    ensures ms'[i].buf[at..at + |data|] == data
    ensures ms'[i].buf[at + |data|..] == ms[i].buf[at + |data|..]
  {
    var b := ms[i].buf;
    var nb := b[..at] + data + b[at + |data|..];
    assert nb[at..at + |data|] == data;
    ms[i := ms[i].(buf := nb)]
  }

  /** Storing nothing changes nothing. */
  lemma StoreNothing(ms: seq<Message>, i: nat, at: nat)
    requires i < |ms| && at <= |ms[i].buf|
    ensures Store(ms, i, at, []) == ms
  {
    assert ms[i].buf[..at] + [] + ms[i].buf[at..] == ms[i].buf;
  }

  /** Storing one more byte is storing that byte into the buffer one past the data. */
  lemma StoreStep(ms: seq<Message>, i: nat, at: nat, data: seq<Byte>, x: Byte)
    requires i < |ms| && at + |data| < |ms[i].buf|
    ensures var s := Store(ms, i, at, data);
      Store(ms, i, at, data + [x]) == s[i := s[i].(buf := s[i].buf[at + |data| := x])]
  {
    var s := Store(ms, i, at, data);
    var b := ms[i].buf;
    assert s[i].buf == b[..at] + data + b[at + |data|..];
    assert b[..at] + (data + [x]) + b[at + |data| + 1..] == s[i].buf[at + |data| := x];
  }

  /** readFromBus from message `d.ri` on: skip write messages; for a read
      message resume a read in progress or start at its first byte, take
      as many bytes as the FIFO holds and the message still needs, and
      either stop with the read in progress or go on with the next. */
  function DrainFrom(d: Drain): (r: Drain)
    requires DrainOk(d)
    ensures |r.msgs| == |d.msgs| && DrainOk(r)
    decreases |d.msgs| - d.ri
  {
    if d.ri == |d.msgs| then d
    else if !IsRead(d.msgs[d.ri]) then DrainFrom(d.(ri := d.ri + 1))
    else
      var s := DrainStep(d);
      if s.reading then s else DrainFrom(s)
  }


  /** The step DrainFrom takes at a read message: it resumes the read in
      progress where it stopped, or starts at the message's first byte,
      takes min(bytes still wanted, RXFLR) bytes off the FIFO front into
      the buffer from there, and either saves the cursor past them with the
      read in progress or moves on to the next message. */
  function DrainStep(d: Drain): (r: Drain)
    requires DrainOk(d) && d.ri < |d.msgs| && IsRead(d.msgs[d.ri])
    ensures var at := if d.reading then d.rxBuf else 0;
      var len := if d.reading then d.rxLen else |d.msgs[d.ri].buf|;
      var n := Min(len, |d.rxFifo|);
      && at + len == |d.msgs[d.ri].buf|
      && r.msgs == Store(d.msgs, d.ri, at, d.rxFifo[..n])
      && r.rxFifo == d.rxFifo[n..] && r.outstanding == d.outstanding - n
      && (r.reading <==> n < len)
      && (r.reading ==> r.ri == d.ri && r.rxBuf == at + n && r.rxLen == len - n)
      && (!r.reading ==> r.ri == d.ri + 1)
  {
    var m := d.msgs[d.ri];
    var buf := if d.reading then d.rxBuf else 0;
    var len := if d.reading then d.rxLen else |m.buf|;
    var n := Min(len, |d.rxFifo|);
    var msgs := Store(d.msgs, d.ri, buf, d.rxFifo[..n]);
    if len - n > 0 then
      Drain(d.ri, true, buf + n, len - n, d.outstanding - n, d.rxFifo[n..], msgs)
    else
      Drain(d.ri + 1, false, d.rxBuf, d.rxLen, d.outstanding - n, d.rxFifo[n..], msgs)
  }

  /** A drain step leaves the read-in-progress invariant in place. */
  lemma DrainStepOk(d: Drain, r: Drain)
    requires DrainOk(d) && d.ri < |d.msgs| && IsRead(d.msgs[d.ri])
    requires r == DrainStep(d)
    ensures DrainOk(r)
  {
  }

  /** What a drain does to the messages: the read-in-progress invariant is
      kept, and only the contents of read buffers from the read index on
      change. */
  lemma {:induction false} DrainShape(d: Drain, r: Drain)
    requires DrainOk(d)
    requires r == DrainFrom(d)
    ensures DrainOk(r)
    ensures d.ri <= r.ri <= |d.msgs|
    ensures SameShape(d.msgs, r.msgs, d.ri)
    decreases |d.msgs| - d.ri
  {
    if d.ri < |d.msgs| {
      if !IsRead(d.msgs[d.ri]) {
        DrainShape(d.(ri := d.ri + 1), r);
      } else {
        var s := DrainStep(d);
        if s.reading {
          assert r == s;
        } else {
          assert r == DrainFrom(s);
          DrainShape(s, r);
        }
      }
    }
  }

  /** What a drain does to the receive FIFO: bytes are taken from its
      front, the outstanding reads drop by exactly the bytes taken, and it
      stops with a read in progress only once it has taken every byte the
      FIFO held (RXFLR as read; the FIFO does not fill during a drain here),
      otherwise having passed every message. */
  lemma {:induction false} DrainFifo(d: Drain, r: Drain)
    requires DrainOk(d)
    requires r == DrainFrom(d)
    ensures |r.rxFifo| <= |d.rxFifo| && r.rxFifo == d.rxFifo[|d.rxFifo| - |r.rxFifo|..]
    ensures d.outstanding - r.outstanding == |d.rxFifo| - |r.rxFifo|
    ensures r.reading ==> r.rxFifo == []
    ensures !r.reading ==> r.ri == |d.msgs|
    decreases |d.msgs| - d.ri
  {
    if d.ri < |d.msgs| {
      if !IsRead(d.msgs[d.ri]) {
        DrainFifo(d.(ri := d.ri + 1), r);
      } else {
        var s := DrainStep(d);
        if s.reading {
          assert r == s;
        } else {
          assert r == DrainFrom(s);
          DrainFifo(s, r);
          var n := |d.rxFifo| - |s.rxFifo|;
          assert s.rxFifo == d.rxFifo[n..];
          assert s.rxFifo[|s.rxFifo| - |r.rxFifo|..] == d.rxFifo[|d.rxFifo| - |r.rxFifo|..];
        }
      }
    } else {
      assert d.rxFifo[|d.rxFifo|..] == [];
    }
  }

  /** A single read message drained from a FIFO holding `fifo` receives
      exactly the first min(len, |fifo|) bytes, in order, at its start, and
      is left in progress exactly when the FIFO ran short. */
  lemma DrainOneRead(m: Message, fifo: seq<Byte>, outstanding: int, r: Drain)
    requires IsRead(m)
    requires r == DrainFrom(Drain(0, false, 0, 0, outstanding, fifo, [m]))
    ensures var n := Min(|m.buf|, |fifo|);
      && |r.msgs| == 1 && n <= |r.msgs[0].buf|
      && r.msgs[0].buf[..n] == fifo[..n]
      && r.outstanding == outstanding - n
      && (r.reading <==> n < |m.buf|)
  {
    var d := Drain(0, false, 0, 0, outstanding, fifo, [m]);
    var n := Min(|m.buf|, |fifo|);
    var s := DrainStep(d);
    assert s.msgs[0].buf[..n] == s.msgs[0].buf[0..0 + n];
    if !s.reading {
      assert DrainFrom(s) == s;
    }
  }

  /** A read resumed after READ_IN_PROGRESS: a read message drained at one
      interrupt from `f1` and at the next from the bytes that have arrived
      since, `f2`, holds the first min(len, |f1| + |f2|) bytes of `f1 + f2`
      contiguously from its start, and is still in progress exactly when
      they fall short of its length. */
  lemma TwoDrains(m: Message, f1: seq<Byte>, f2: seq<Byte>, outstanding: int)
    requires IsRead(m)
    ensures var d1 := DrainFrom(Drain(0, false, 0, 0, outstanding, f1, [m]));
      var r := DrainFrom(d1.(rxFifo := d1.rxFifo + f2));
      var n := Min(|m.buf|, |f1| + |f2|);
      && |r.msgs| == 1 && n <= |r.msgs[0].buf|
      && r.msgs[0].buf[..n] == (f1 + f2)[..n]
      && r.outstanding == outstanding - n
      && (r.reading <==> n < |m.buf|)
  {
    var d0 := Drain(0, false, 0, 0, outstanding, f1, [m]);
    var d1 := DrainStep(d0);
    assert DrainFrom(d0) == d1;
    var g := d1.(rxFifo := d1.rxFifo + f2);
    var n := Min(|m.buf|, |f1| + |f2|);
    if d1.reading {
      assert g.rxFifo == f2;
      var t := DrainStep(g);
      assert DrainFrom(g) == t;
      var n2 := Min(|m.buf| - |f1|, |f2|);
      assert n == |f1| + n2;
      var b1 := d1.msgs[0].buf;
      assert b1[..|f1|] == f1;
      var b2 := t.msgs[0].buf;
      assert b2[..|f1|] == b1[..|f1|];
      assert b2[|f1|..|f1| + n2] == f2[..n2];
      assert b2[..n] == b2[..|f1|] + b2[|f1|..|f1| + n2];
      assert (f1 + f2)[..n] == f1 + f2[..n2];
    } else {
      assert DrainFrom(g) == g;
      assert d1.msgs[0].buf[..n] == d1.msgs[0].buf[0..0 + n];
      assert (f1 + f2)[..n] == f1[..n];
    }
  }

  /** One FIFO batch spread over two fresh read messages: the first gets
      the first min(len, RXFLR) bytes and the second the bytes after them. */
  lemma TwoReads(m1: Message, m2: Message, fifo: seq<Byte>, outstanding: int)
    requires IsRead(m1) && IsRead(m2)
    ensures var r := DrainFrom(Drain(0, false, 0, 0, outstanding, fifo, [m1, m2]));
      var n1 := Min(|m1.buf|, |fifo|);
      var n2 := Min(|m2.buf|, |fifo| - n1);
      && |r.msgs| == 2 && n1 <= |r.msgs[0].buf| && n2 <= |r.msgs[1].buf|
      && r.msgs[0].buf[..n1] == fifo[..n1]
      && r.msgs[1].buf[..n2] == fifo[n1..n1 + n2]
      && r.outstanding == outstanding - (n1 + n2)
  {
    var d0 := Drain(0, false, 0, 0, outstanding, fifo, [m1, m2]);
    var n1 := Min(|m1.buf|, |fifo|);
    var n2 := Min(|m2.buf|, |fifo| - n1);
    var s := DrainStep(d0);
    assert s.msgs[0].buf[..n1] == s.msgs[0].buf[0..0 + n1];
    if s.reading {
      assert DrainFrom(d0) == s;
      assert n2 == 0;
    } else {
      assert DrainFrom(d0) == DrainFrom(s);
      var t := DrainStep(s);
      if t.reading {
        assert DrainFrom(s) == t;
      } else {
        assert DrainFrom(s) == DrainFrom(t) == t;
      }
      assert s.rxFifo[..n2] == fifo[n1..n1 + n2];
      assert t.msgs[1].buf[..n2] == t.msgs[1].buf[0..0 + n2];
      assert t.msgs[0] == s.msgs[0];
    }
  }
}

=== FILE: outcome.dfy ===
/** How a finished transfer is reported: the error flags left by the
    interrupt path mapped to the IOKit result the caller sees. */
module Outcome {
  import opened Types
  import opened Registers

  /** The number of times transferI2CGated submits a transfer at most. */
  const MAX_ATTEMPTS: nat := 6

  /** The classification at the end of prepareTransferI2C, once the wait
      has ended without a timeout: a driver-detected message error is a
      failure, no command error is success, a transmit abort is a failure,
      and any other command error is "not ready" (worth retrying). */
  function Classify(messageError: bool, commandError: Word): (r: IOReturn)
    ensures r == Success || r == Error || r == NotReady
    ensures r == Success <==> !messageError && commandError == 0
    ensures r == Error <==> messageError || commandError == ERR_TX_ABRT
    ensures r == NotReady <==> !messageError && commandError != 0 && commandError != ERR_TX_ABRT
  {
    if messageError then Error
    else if commandError == 0 then Success
    else if commandError == ERR_TX_ABRT then Error
    else NotReady
  }

  /** Whether the caller's retry loop submits the transfer again. */
  predicate Retried(r: IOReturn)
  {
    r == NotReady
  }

  /** The number of submissions transferI2CGated makes when they report
      `results` in turn: it stops at the first result other than NotReady,
      and after MAX_ATTEMPTS submissions in any case. */
  function Attempts(results: seq<IOReturn>): (n: nat)
    requires |results| >= MAX_ATTEMPTS
    ensures 1 <= n <= MAX_ATTEMPTS
    ensures forall i :: 0 <= i < n - 1 ==> Retried(results[i])
    ensures n < MAX_ATTEMPTS ==> !Retried(results[n - 1])
  {
    AttemptsFrom(results, 0)
  }

  /** The submissions from the `k`-th on, when the first `k` reported NotReady. */
  function AttemptsFrom(results: seq<IOReturn>, k: nat): (n: nat)
    requires k < MAX_ATTEMPTS <= |results|
    requires forall i :: 0 <= i < k ==> Retried(results[i])
    ensures k < n <= MAX_ATTEMPTS
    ensures forall i :: 0 <= i < n - 1 ==> Retried(results[i])
    ensures n < MAX_ATTEMPTS ==> !Retried(results[n - 1])
    decreases MAX_ATTEMPTS - k
  {
    if !Retried(results[k]) || k + 1 == MAX_ATTEMPTS then k + 1
    else AttemptsFrom(results, k + 1)
  }

  /** What transferI2CGated returns: the last submission's result, which
      is NotReady only when all MAX_ATTEMPTS submissions reported it. */
  lemma GatedResult(results: seq<IOReturn>)
    requires |results| >= MAX_ATTEMPTS
    ensures var n := Attempts(results);
      Retried(results[n - 1]) <==> n == MAX_ATTEMPTS && forall i :: 0 <= i < n ==> Retried(results[i])
  {
  }

  /** The interrupt path only ever sets command_error to the abort marker,
      so a classified transfer is never "not ready" and never retried. */
  lemma AbortOnlyErrorsAreNotRetried(messageError: bool, commandError: Word)
    requires commandError == 0 || commandError == ERR_TX_ABRT
    ensures !Retried(Classify(messageError, commandError))
  {
  }
}

=== FILE: registers.dfy ===
/** Register names and bit layouts of the DesignWare I2C core, and the
    small word computations the driver performs on them: command words
    for DATA_CMD, the interrupt mask after a transmit fill, the control
    word, the CON/TAR pair for a target address, and the interrupt bits
    that reading the clear registers acknowledges.

    The numeric values of the DW_IC_* constants follow the DesignWare
    register layout used by the Linux i2c-designware driver. */
module Registers {
  import opened Types

  /** The registers the driver writes (and the ones it reads, for reference). */
  datatype Reg =
    | Con | Tar | SsSclHcnt | SsSclLcnt | FsSclHcnt | FsSclLcnt
    | DataCmd | IntrMask | RxTl | TxTl | Enable | SdaHold
    | TxAbrtSource | CompParam1 | CompVersion | ClockGating

  /** The contents of the plain registers. */
  type Regs = map<Reg, Word>

  /** The word register `r` holds (0 when it has never been written). */
  function Get(regs: Regs, r: Reg): Word
  {
    if r in regs then regs[r] else 0
  }

  // Interrupt bits (INTR_STAT, RAW_INTR_STAT, INTR_MASK).
  const INTR_RX_UNDER: Word := 0x001
  const INTR_RX_OVER: Word := 0x002
  const INTR_RX_FULL: Word := 0x004
  const INTR_TX_OVER: Word := 0x008
  const INTR_TX_EMPTY: Word := 0x010
  const INTR_RD_REQ: Word := 0x020
  const INTR_TX_ABRT: Word := 0x040
  const INTR_RX_DONE: Word := 0x080
  const INTR_ACTIVITY: Word := 0x100
  const INTR_STOP_DET: Word := 0x200
  const INTR_START_DET: Word := 0x400
  const INTR_GEN_CALL: Word := 0x800

  /** The interrupts serviced while a transfer is armed. */
  const INTR_DEFAULT_MASK: Word := INTR_RX_FULL | INTR_TX_EMPTY | INTR_TX_ABRT | INTR_STOP_DET

  /** Interrupt bits that a read of their clear register acknowledges
      (RX_FULL and TX_EMPTY follow the FIFO levels and have none). */
  const INTR_CLEARABLE: Word :=
    INTR_RX_UNDER | INTR_RX_OVER | INTR_TX_OVER | INTR_RD_REQ | INTR_TX_ABRT
    | INTR_RX_DONE | INTR_ACTIVITY | INTR_STOP_DET | INTR_START_DET | INTR_GEN_CALL

  // Control register bits.
  const CON_MASTER: Word := 0x01
  const CON_SPEED_FAST: Word := 0x04
  const CON_10BITADDR_MASTER: Word := 0x10
  const CON_RESTART_EN: Word := 0x20
  const CON_SLAVE_DISABLE: Word := 0x40
  const CON_BUS_CLEAR_CTRL: Word := 0x800

  /** Bit 12 of TAR selects 10-bit addressing when TAR is updated dynamically. */
  const TAR_10BITADDR_MASTER: Word := 0x1000

  /** Bit 0 of STATUS: the controller is busy on the bus. */
  const STATUS_ACTIVITY: Word := 0x1

  /** SDA hold: the receive-hold field occupies bits 16..23, and the
      component version from which the hold time can be programmed. */
  const SDA_HOLD_RX_SHIFT: nat := 16
  const SDA_HOLD_MIN_VERS: Word := 0x3131_312A

  /** The value command_error takes on a transmit abort. */
  const ERR_TX_ABRT: Word := 0x1

  // Message flags.
  const I2C_M_RD: Word := 0x0001
  const I2C_M_TEN: Word := 0x0010

  // Driver status bits (bus_device.status).
  const STATUS_IDLE: Word := 0x0
  const STATUS_WRITE_IN_PROGRESS: Word := 0x1
  const STATUS_READ_IN_PROGRESS: Word := 0x2

  // DATA_CMD command bits written as literals by the driver.
  const CMD_READ: Word := 0x100
  const CMD_STOP: Word := 0x200
  const CMD_RESTART: Word := 0x400

  /** A DATA_CMD word: optional stop and restart bits, then either the read
      token or the data byte to send. Each field can be read back. */
  function CommandWord(stop: bool, restart: bool, read: bool, data: Byte): (w: Word)
    ensures (w & CMD_STOP != 0) == stop
    ensures (w & CMD_RESTART != 0) == restart
    ensures (w & CMD_READ != 0) == read
    ensures read ==> w & 0xFF == 0
    ensures !read ==> w & 0xFF == data as Word
    ensures w & !0x7FF == 0
  {
    (if stop then CMD_STOP else 0) | (if restart then CMD_RESTART else 0)
    | (if read then CMD_READ else data as Word)
  }

  /** The interrupt mask written at the end of a transmit fill: the default
      mask, without TX_EMPTY once every message has been queued, and
      nothing at all once a message error has been flagged. */
  function FillMask(allQueued: bool, messageError: bool): (m: Word)
    ensures messageError ==> m == 0
    ensures !messageError ==> (m & INTR_TX_EMPTY == 0 <==> allQueued)
    ensures !messageError ==> m & !INTR_TX_EMPTY == INTR_DEFAULT_MASK & !INTR_TX_EMPTY
  {
    var mask := if allQueued then INTR_DEFAULT_MASK & !INTR_TX_EMPTY else INTR_DEFAULT_MASK;
    if messageError then 0 else mask
  }

  /** The control word programmed into CON: master mode, slave disabled,
      restart enabled, fast speed, plus the bus-clear bit when the firmware
      left it set in CON, and no other bit (in particular neither 10-bit
      addressing nor high speed). */
  function ControlWord(con: Word): (w: Word)
    ensures w & (CON_MASTER | CON_SLAVE_DISABLE | CON_RESTART_EN | CON_SPEED_FAST)
            == CON_MASTER | CON_SLAVE_DISABLE | CON_RESTART_EN | CON_SPEED_FAST
    ensures (w & CON_BUS_CLEAR_CTRL != 0) == (con & CON_BUS_CLEAR_CTRL != 0)
    ensures w & !(CON_MASTER | CON_SLAVE_DISABLE | CON_RESTART_EN | CON_SPEED_FAST | CON_BUS_CLEAR_CTRL) == 0
  {
    var w := CON_MASTER | CON_SLAVE_DISABLE | CON_RESTART_EN | CON_SPEED_FAST;
    if con & CON_BUS_CLEAR_CTRL != 0 then w | CON_BUS_CLEAR_CTRL else w
  }

  /** The CON and TAR values used to arm a transfer to `address`: 10-bit
      master addressing in CON (and bit 12 of TAR) exactly when the first
      message asks for a ten-bit address; every other CON bit is kept. */
  function TargetWords(con: Word, flags: Word, address: Word): (r: (Word, Word))
    ensures (r.0 & CON_10BITADDR_MASTER != 0) == (flags & I2C_M_TEN != 0)
    ensures r.0 & !CON_10BITADDR_MASTER == con & !CON_10BITADDR_MASTER
    ensures r.1 & !TAR_10BITADDR_MASTER == address & !TAR_10BITADDR_MASTER
    ensures flags & I2C_M_TEN != 0 ==> r.1 & TAR_10BITADDR_MASTER != 0
    ensures flags & I2C_M_TEN == 0 ==> r.1 == address
  {
    if flags & I2C_M_TEN != 0 then
      (con | CON_10BITADDR_MASTER, address | TAR_10BITADDR_MASTER)
    else
      (con & !CON_10BITADDR_MASTER, address)
  }

  /** Whether handleInterrupt services a raw interrupt word: something
      besides ACTIVITY is raised, and the word is not all ones (what a
      read from a controller that has gone away returns). */
  predicate Serviceable(raw: Word)
  {
    raw & !INTR_ACTIVITY != 0 && raw != 0xFFFF_FFFF
  }

  /** Whether interrupt bit `bit` is raised in `w`. */
  predicate Raised(w: Word, bit: Word)
  {
    w & bit != 0
  }

  /** RAW_INTR_STAT after the clear registers of the bits INTR_STAT
      reported as `stat` have been read. */
  function Acknowledged(raw: Word, stat: Word, outstanding: int): Word
  {
    raw & !ClearedBits(stat, outstanding)
  }

  /** RAW_INTR_STAT after a read of CLR_INTR, which acknowledges every
      clearable interrupt at once. */
  function AllAcknowledged(raw: Word): Word
  {
    raw & !INTR_CLEARABLE
  }

  /** The interrupt bits acknowledged by reading their clear registers when
      INTR_STAT reads `stat`: every pending clearable bit, except that
      STOP_DET is left pending while reads are still outstanding and the
      receive FIFO is not full. */
  function ClearedBits(stat: Word, outstanding: int): (c: Word)
    ensures c & !stat == 0
    ensures c & (INTR_RX_FULL | INTR_TX_EMPTY) == 0
    ensures c & !INTR_STOP_DET == stat & INTR_CLEARABLE & !INTR_STOP_DET
    ensures (c & INTR_STOP_DET != 0)
            == (stat & INTR_STOP_DET != 0 && (outstanding == 0 || stat & INTR_RX_FULL != 0))
  {
    var others := stat & INTR_CLEARABLE & !INTR_STOP_DET;
    if stat & INTR_STOP_DET != 0 && (outstanding == 0 || stat & INTR_RX_FULL != 0) then
      others | INTR_STOP_DET
    else
      others
  }
}

=== FILE: timing.dfy ===
/** The timing calculator: SCL high/low counts for standard and fast mode
    and the SDA hold value, from the platform's input clock, the firmware
    (ACPI) overrides and the hardware's own registers. */
module Timing {
  import opened Types
  import opened Registers

  const KILO: nat := 1000
  const MICRO: nat := 1000000

  /** DIV_ROUND_CLOSEST_ULL: `x / d` rounded to the nearest integer, halves
      rounded up (never the truncated quotient when the remainder is at
      least half of `d`). */
  function DivRoundClosest(x: nat, d: nat): (q: nat)
    requires d > 0
    ensures q * d <= x + d / 2 < q * d + d
  {
    var q := (x + d / 2) / d;
    DivBounds(x + d / 2, d);
    q
  }

  lemma DivBounds(a: nat, d: nat)
    requires d > 0
    ensures (a / d) * d <= a < (a / d) * d + d
  {
  }

  function Abs(a: int): nat
  {
    if a < 0 then -a else a
  }

  /** C's signed division, which truncates toward zero. */
  function TruncDiv(a: int, b: int): int
    requires b != 0
  {
    if (a < 0) == (b < 0) then Abs(a) / Abs(b) else -(Abs(a) / Abs(b))
  }

  /** DIV_S64_ROUND_CLOSEST: signed division rounding to the nearest
      integer with halves away from zero. For a positive divisor it agrees
      with DivRoundClosest on non-negative dividends and is odd-symmetric. */
  function DivS64RoundClosest(x: int, d: int): (q: int)
    requires d != 0
    ensures d > 0 && x >= 0 ==> q == DivRoundClosest(x, d)
    ensures d > 0 && x < 0 ==> q == -(DivRoundClosest(-x, d) as int)
  {
    var h := TruncDiv(d, 2);
    var q := if (x > 0) == (d > 0) then TruncDiv(x + h, d) else TruncDiv(x - h, d);
    if d > 0 then RoundClosestCases(x, d); q else q
  }

  lemma RoundClosestCases(x: int, d: int)
    requires d > 0
    ensures x > 0 ==> TruncDiv(x + TruncDiv(d, 2), d) == DivRoundClosest(x, d)
    ensures x == 0 ==> TruncDiv(x - TruncDiv(d, 2), d) == 0 == DivRoundClosest(x, d)
    ensures x < 0 ==> TruncDiv(x - TruncDiv(d, 2), d) == -(DivRoundClosest(-x, d) as int)
  {
    var h := d / 2;
    assert TruncDiv(d, 2) == h;
    if x == 0 {
      assert h < d;
      assert TruncDiv(-h, d) == -(h / d);
    } else if x < 0 {
      assert x - h < 0;
      assert Abs(x - h) == -x + h;
    }
  }

  /** getClkRateFor: the input clock in kHz of the platforms whose clock is
      known by name, and 0 (unknown) for every other platform. */
  function ClkRateFor(name: string): (khz: nat)
    ensures name == "AMD0010" ==> khz == 133000
    ensures name == "AMDI0010" || name == "AMDI0019" ==> khz == 150000
    ensures khz == 0 <==> name != "AMD0010" && name != "AMDI0010" && name != "AMDI0019"
    ensures khz < TWO32
  {
    if name == "AMD0010" then 133000000 / KILO
    else if name == "AMDI0010" || name == "AMDI0019" then 150000000 / KILO
    else 0
  }

  /** The Sunrise Point platforms, which get their own fallback constants. */
  predicate IsSunrisePoint(name: string)
  {
    name == "INT344B" || name == "INT345D"
  }

  /** An SCL count computed from the clock: `clk * ns / 10^6` rounded to
      nearest (halves up), minus a fixed offset, in unsigned 32-bit
      arithmetic (a count below the offset wraps around). */
  function SclCount(clk: nat, ns: nat, offset: nat): (c: U32)
    requires clk < TWO32 && ns <= 5000 && offset <= 3
    ensures clk * ns + MICRO / 2 >= offset * MICRO ==>
              (c + offset) * MICRO - MICRO / 2 <= clk * ns < (c + offset) * MICRO + MICRO / 2
    ensures clk * ns < offset * MICRO - MICRO / 2 ==>
              c + offset == TWO32 + DivRoundClosest(clk * ns, MICRO) && c >= TWO32 - offset
  {
    var x := clk * ns;
    ProductBound(clk, ns);
    var q := DivRoundClosest(x, MICRO);
    assert q * MICRO <= x + MICRO / 2 < q * MICRO + MICRO;
    assert q < TWO32;
    Wrap32(q - offset)
  }

  lemma ProductBound(clk: nat, ns: nat)
    requires clk < TWO32 && ns <= 5000
    ensures clk * ns <= (TWO32 - 1) * 5000
  {
    assert clk * ns <= clk * 5000 by {
      assert clk * 5000 - clk * ns == clk * (5000 - ns);
    }
  }

  /** The nearest-integer claim made concrete: on the 133 MHz platform the
      standard-mode high count is 569, where a truncating division gives 568. */
  lemma RoundingIsNotTruncation()
    ensures SclCount(133000, 4300, 3) == 569
    ensures (133000 * 4300) / MICRO - 3 == 568
  {
  }

  /** The receive-hold field (bits 16..23) of an SDA hold value. */
  function RxHold(h: U32): nat
  {
    (h / 0x1_0000) % 0x100
  }

  /** Forces the SDA receive-hold bit (bit 16) on when the receive-hold
      field is clear. `h + 0x1_0000` is `h | 1 << 16` there, since bit 16 is
      clear. The hold time itself (bits 0..15) is kept. */
  function ForceRxHold(h: U32): (r: U32)
    ensures RxHold(r) != 0 && r != 0
    ensures RxHold(h) != 0 ==> r == h
    ensures RxHold(h) == 0 ==> RxHold(r) == 1
    ensures r % 0x1_0000 == h % 0x1_0000
    ensures r / 0x100_0000 == h / 0x100_0000
  {
    if RxHold(h) == 0 then h + 0x1_0000 else h
  }

  /** Forcing the receive-hold bit twice is forcing it once. */
  lemma ForceRxHoldIdempotent(h: U32)
    ensures ForceRxHold(ForceRxHold(h)) == ForceRxHold(h)
  {
  }

  /** The SDA hold value at the end of getBusConfig. `held` is the value
      before the version check (the FMCN override, or the value from
      before), `hw` what the SDA_HOLD register reads. Hardware below the
      minimum version keeps `held`; otherwise the clock's value overrides
      `held`, then the register, then a platform constant fill a zero, and
      the receive-hold bit is forced on. */
  function ResolveSdaHold(adjustable: bool, clk: nat, held: U32, hw: U32, sunrise: bool): (h: U32)
    requires clk < TWO32
    ensures !adjustable ==> h == held
    ensures adjustable ==> h != 0 && RxHold(h) != 0
    ensures adjustable && clk * 300 >= MICRO / 2 ==> h == ForceRxHold(DivRoundClosest(clk * 300, MICRO))
    ensures adjustable && clk == 0 && held != 0 ==> h == ForceRxHold(held)
    ensures adjustable && ((clk == 0 && held == 0) || (0 < clk && clk * 300 < MICRO / 2)) ==>
              h == ForceRxHold(if hw != 0 then hw else if sunrise then 0x1E else 0x62)
  {
    if !adjustable then held
    else
      var fromClock := DivS64RoundClosest(clk * 300, MICRO);
      assert 0 <= fromClock <= clk * 300 / MICRO + 1;
      var h1 := if clk != 0 then Wrap32(fromClock) else held;
      var h2 := if h1 == 0 then hw else h1;
      var h3 := if h2 == 0 then (if sunrise then 0x1E else 0x62) else h2;
      ForceRxHold(h3)
  }

  /** The five timing values. */
  datatype TimingConfig = TimingConfig(ssHcnt: U32, ssLcnt: U32, fsHcnt: U32, fsLcnt: U32, sdaHold: U32)

  /** getBusConfig's timing computation. `sscn` and `fmcn` are the firmware
      overrides (absent when the lookup fails), `priorHold` the SDA hold
      value before the call, `version` the COMP_VERSION register and `hw`
      the SDA_HOLD register. The second component is NotFound exactly when
      a fallback constant pair had to be used. */
  function BusTiming(name: string, sscn: Option<(U32, U32)>, fmcn: Option<(U32, U32, U32)>,
                     priorHold: U32, version: Word, hw: U32): (r: (TimingConfig, IOReturn))
    ensures var c := r.0; var clk := ClkRateFor(name);
      && (sscn.Some? ==> (c.ssHcnt, c.ssLcnt) == sscn.value)
      && (fmcn.Some? ==> (c.fsHcnt, c.fsLcnt) == (fmcn.value.0, fmcn.value.1))
      && (sscn.None? && clk != 0 ==> c.ssHcnt == SclCount(clk, 4300, 3) && c.ssLcnt == SclCount(clk, 5000, 1))
      && (fmcn.None? && clk != 0 ==> c.fsHcnt == SclCount(clk, 900, 3) && c.fsLcnt == SclCount(clk, 1600, 1))
      && (sscn.None? && clk == 0 ==>
            (c.ssHcnt, c.ssLcnt) == if IsSunrisePoint(name) then (0x01B0, 0x01FB) else (0x03F2, 0x043D))
      && (fmcn.None? && clk == 0 ==>
            (c.fsHcnt, c.fsLcnt) == if IsSunrisePoint(name) then (0x48, 0xA0) else (0x0101, 0x012C))
    ensures r.1 == Success || r.1 == NotFound
    ensures r.1 == Success <==> (sscn.Some? || ClkRateFor(name) != 0) && (fmcn.Some? || ClkRateFor(name) != 0)
    ensures version >= SDA_HOLD_MIN_VERS ==> r.0.sdaHold != 0 && RxHold(r.0.sdaHold) != 0
    ensures version < SDA_HOLD_MIN_VERS ==> r.0.sdaHold == if fmcn.Some? then fmcn.value.2 else priorHold
    ensures r.0.sdaHold == ResolveSdaHold(version >= SDA_HOLD_MIN_VERS, ClkRateFor(name),
                                          if fmcn.Some? then fmcn.value.2 else priorHold, hw, IsSunrisePoint(name))
  {
    var clk := ClkRateFor(name);
    var sunrise := IsSunrisePoint(name);
    var ss: (U32, U32) :=
      if sscn.Some? then sscn.value
      else if clk != 0 then (SclCount(clk, 4300, 3), SclCount(clk, 5000, 1))
      else if sunrise then (0x01B0, 0x01FB) else (0x03F2, 0x043D);
    var fs: (U32, U32) :=
      if fmcn.Some? then (fmcn.value.0, fmcn.value.1)
      else if clk != 0 then (SclCount(clk, 900, 3), SclCount(clk, 1600, 1))
      else if sunrise then (0x48, 0xA0) else (0x0101, 0x012C);
    var held := if fmcn.Some? then fmcn.value.2 else priorHold;
    var hold := ResolveSdaHold(version >= SDA_HOLD_MIN_VERS, clk, held, hw, sunrise);
    var error := (sscn.None? && clk == 0) || (fmcn.None? && clk == 0);
    (TimingConfig(ss.0, ss.1, fs.0, fs.1, hold), if error then NotFound else Success)
  }

  /** With the FMCN override present and the clock known, the override's SDA
      hold value is replaced by the clock's on adjustable hardware. */
  lemma ClockReplacesFmcnHold(name: string, sscn: Option<(U32, U32)>, f: (U32, U32, U32),
                              priorHold: U32, version: Word, hw: U32)
    requires ClkRateFor(name) != 0 && version >= SDA_HOLD_MIN_VERS
    ensures BusTiming(name, sscn, Some(f), priorHold, version, hw).0.sdaHold
            == ForceRxHold(DivRoundClosest(ClkRateFor(name) * 300, MICRO))
  {
  }

  /** With the clock unknown, adjustable hardware keeps the FMCN override's
      SDA hold value; when that is zero, the SDA_HOLD register's value, and
      when that is zero too, the platform's constant. */
  lemma UnknownClockHold(name: string, sscn: Option<(U32, U32)>, f: (U32, U32, U32),
                         priorHold: U32, version: Word, hw: U32)
    requires ClkRateFor(name) == 0 && version >= SDA_HOLD_MIN_VERS
    ensures var h := BusTiming(name, sscn, Some(f), priorHold, version, hw).0.sdaHold;
      && (f.2 != 0 ==> h == ForceRxHold(f.2))
      && (f.2 == 0 && hw != 0 ==> h == ForceRxHold(hw))
      && (f.2 == 0 && hw == 0 ==> h == ForceRxHold(if IsSunrisePoint(name) then 0x1E else 0x62))
  {
  }

  /** The AMD 133 MHz platform without firmware overrides. */
  lemma Amd133Timing(priorHold: U32, hw: U32)
    ensures BusTiming("AMD0010", None, None, priorHold, SDA_HOLD_MIN_VERS, hw)
            == (TimingConfig(569, 664, 117, 212, 0x1_0028), Success)
  {
  }
}

=== FILE: types.dfy ===
/** Basic types shared by the controller model: register words, bytes,
    the IOKit return codes the driver produces, and 32-bit truncation. */
module Types {

  /** The value of a 32-bit controller register. */
  type Word = bv32

  /** One byte of an I2C message buffer. */
  type Byte = bv8

  datatype Option<+T> = None | Some(value: T)

  /** The IOKit return codes that the transfer engine and the timing
      calculator hand back to their callers. */
  datatype IOReturn = Success | Error | NotReady | Timeout | Busy | NotFound

  const TWO32: int := 0x1_0000_0000

  /** An unsigned 32-bit quantity used arithmetically (timing counts). */
  type U32 = n: int | 0 <= n < TWO32

  /** C's conversion of an integer to `UInt32`: the value modulo 2^32. */
  function Wrap32(n: int): (w: U32)
    ensures 0 <= n < TWO32 ==> w == n
    ensures 0 <= n ==> w <= n
    ensures -TWO32 <= n < 0 ==> w == n + TWO32
    ensures (w - n) % TWO32 == 0
  {
    n % TWO32
  }

  function Min(a: int, b: int): (m: int)
    ensures m <= a && m <= b && (m == a || m == b)
  {
    if a <= b then a else b
  }
}
